=== FILE: README.md ===
# LibreLinkUp glucose fetcher — a Dafny model of its core

The service logs into the LibreLinkUp follower API, lists the patients the account follows,
picks one, downloads that patient's glucose graph, and turns it into canonical readings:
the latest measurement and the history points. The readings go into a MongoDB collection
that has a unique index on the sensor's `device_timestamp`. This project models that core:

- `LibreLinkUpService` in `app/services/librelinkup.py`: the session fields, the
  authentication headers, token validity, the session effects of `login`,
  `get_connections` and `get_glucose_data`, `select_connection`, the orchestrator
  `fetch_and_process_data` with its re-login retries, the timestamp normaliser, the
  latest and history processors, and the trend table.
- `MongoDBService` in `app/services/database.py`: `insert_entry`, `insert_entries`,
  `get_latest_entry` and `get_entries_since`, over an abstract collection.

The model is functional. The session is an immutable record threaded through pure step
functions. Each remote call takes the server's reply as an argument. A whole cycle reads
its replies from a scripted server (`Fetch.Remote`): the reply to the k-th invocation of
each endpoint. The cycle returns the result pair, the new session, the calls it made in
order (split into the initial login, the connections stage and the graph stage), and which
`return` ended it. Instants are integer microseconds since the epoch,
which is Python `datetime` resolution.

Modules, one per file:

| file | module | models |
|---|---|---|
| `optional.dfy` | `Optional` | `Option`, the JSON key/`null` distinction (`Field`), Python truthiness of strings |
| `time.dfy` | `Time` | instants, the `datetime` range, civil (proleptic Gregorian) time |
| `decimal.dfy` | `Decimal` | ASCII numerals: scanning, value, printing |
| `timestamps.dfy` | `Timestamps` | `_parse_llu_timestamp`: an exact recogniser of `%m/%d/%Y %I:%M:%S %p`, its printer, the ISO fallback |
| `trend.dfy` | `Trend` | `_map_trend_arrow` |
| `vendor.dfy` | `Vendor` | the decoded reply shapes of the three endpoints |
| `session.dfy` | `SessionManager` | session fields, headers, validity, expiry rule, renewal, invalidation |
| `client.dfy` | `Client` | `login`, `get_connections`, `get_glucose_data`, `select_connection` |
| `readings.dfy` | `Readings` | `_process_latest_reading`, `_process_historical_readings` |
| `fetch.dfy` | `Fetch` | `fetch_and_process_data` |
| `store.dfy` | `EntryStore` | the `entries` collection and its four operations |

Behaviour of the code that a reader might not expect, and where the model states it:

- **Pairing.** `get_authenticated_headers` needs both the token and the user id, and
  `is_token_valid` looks at the token alone, so the two are meant to be set and cleared
  together (`SessionManager.Paired`). `login` only checks that the keys `token` and `id`
  exist, so a reply whose token is `null` or `""` stores a user id without a usable token
  (`Client.LoginCanUnpair`). The pairing does hold across a whole cycle when every login
  reply respects it (`Fetch.CycleKeepsPairing`). The data calls alone never break it.
- **Validity.** `is_token_valid` does not look at the user id
  (`SessionManager.IsTokenValid`).
- **Expiry.** A `null` `expires` or `duration` in the login ticket makes the comparison
  with 0 raise. So does an `expires` past year 9999, or `now + duration` past
  `datetime.max`. All of this happens after the token and user id were written, so
  `login` reports failure with those two fields already replaced
  (`SessionManager.LoginExpiry`, `Client.Login`).
- **Login budget.** The code re-logs in once per data step, so one cycle can make 3
  logins, 2 connection calls and 2 graph calls (`Fetch.CallBudget` bounds them,
  `Fetch.ThreeLogins` reaches 3 logins). With connections failing on every call, there are
  exactly two connection attempts only when the re-login succeeds
  (`Fetch.ConnectionsAlwaysFailing`).
- **Empty replies.** An empty connection list and an empty graph object count as failures
  and trigger the re-login (`Fetch.EmptyConnectionListIsRetried`,
  `Fetch.EmptyGraphIsRetried`).
- **History entries.** A history point is kept when the keys `Value` and `Timestamp`
  exist, whatever their values. A `null` value yields a reading without a value
  (`Readings.NullValueIsKept`). Every history reading gets direction `NONE`.
- **Timestamp overflow.** An ISO timestamp with an offset whose UTC conversion leaves the
  `datetime` range makes `astimezone` raise `OverflowError`, which the parser's
  `except (ValueError, TypeError)` does not catch. The processing then raises, and the
  cycle returns `(None, [])` from its `except` branch (`Timestamps.ConversionOverflows`,
  `Readings.Process`, `Readings.OverflowingLatestRaises`, exit `ProcessingFailed`).
- **Configured target.** An empty configured patient id counts as none configured.
- **Store writes.** The store is insert-if-absent: the first document for a
  `device_timestamp` wins and is never replaced. This holds for the latest reading too.

## Model

Members without a row are helpers that serve the contracts below: predicates and small
functions (guards, filters, reply shapes, call counters, civil-time and digit arithmetic)
and the step lemmas of the longer proofs. Those closest to the source are
`Client.Accepted` (the guards of `login`, stated through `Client.Login`), `Readings.Keep`
and `Readings.HistoryEntry` (the filter and the entry of one history point, stated
through `Readings.KeptPoints` and `Readings.HistoryEntries`), `Readings.ProcessingRaises`
(stated through `Readings.Process`), and `Fetch.Attempts` (how often a stage made its
own call, tied to `Fetch.Count` by `Fetch.StageCounts`).

| member | source | states |
|---|---|---|
| SessionManager.AuthenticatedHeaders | app/services/librelinkup.py:41-57 | no headers exactly when the token or the user id is falsy; otherwise the default headers plus `Authorization: Bearer <token>` and `account-id` = hash of the user id, every other default header unchanged |
| SessionManager.IsTokenValid | app/services/librelinkup.py:66-69 | never valid without a truthy token or without an expiry; with an expiry, valid exactly when the token is truthy and more than 60 s remain before it; the user id plays no part |
| SessionManager.ValidityWindow | app/services/librelinkup.py:66-69 | the 60-second margin: an expiry 59 s or 60 s ahead is not valid, 61 s ahead is; a session without an expiry is never valid; validity, once lost, does not come back as time advances |
| SessionManager.ValidMeansLoggedIn | app/services/librelinkup.py:66-69 | under the pairing invariant a valid token implies both credentials are truthy |
| SessionManager.ApplyRenewal | app/services/librelinkup.py:164-174 | a ticket with a truthy token replaces the token, and a positive in-range `expires` then replaces the expiry; without such a ticket the session is unchanged; the user id and patient id are never touched |
| SessionManager.Invalidate | app/services/librelinkup.py:189-193 | token, user id and expiry all become None, so the session is not logged in and not valid at any instant; it stays paired and keeps its patient id |
| SessionManager.AfterRequestFailure | app/services/librelinkup.py:183-194 | HTTP 401 or 403 invalidates; any other failure, a transport error included, leaves the session unchanged |
| SessionManager.DataCallKeepsPairing | app/services/librelinkup.py:162-194 | a data call made while logged in (unchanged, invalidated, or renewed keeping the user id) leaves token and user id paired |
| Client.Login | app/services/librelinkup.py:93-126 | a reply failing the guards changes nothing and reports failure; one passing them stores the token and id values as given; a failed expiry computation keeps the old expiry; the patient id is never touched |
| SessionManager.LoginExpiry | app/services/librelinkup.py:110-123 | a positive `expires` decides alone: it raises exactly when past year 9999; a `null` `expires` raises; a recorded expiry is within the `datetime` range, and one not taken from `expires` is `now` plus the positive `duration`, so it lies in the future |
| Client.LoginExpiryPriority | app/services/librelinkup.py:110-123 | a positive in-range `expires` wins; otherwise a positive `duration` counts from `now`; otherwise no expiry; and login fails exactly for a `null`/out-of-range `expires` or, when `expires` is absent or not positive, a `null`/overflowing `duration` |
| Client.LoginPairing | app/services/librelinkup.py:104-109 | from a paired session, login leaves it paired exactly when the reply's token and id agree in truthiness |
| Client.LoginCanUnpair | app/services/librelinkup.py:104-109 | a concrete accepted reply with a `null` token stores the user id without a token, breaking the pairing |
| Client.GetConnections | app/services/librelinkup.py:148-200 | no call effect unless logged in; a status-0 body whose `data` is a list yields that list with the session unchanged, and only such a body yields anything; a non-zero status applies the ticket renewal; 401/403 invalidates; any other HTTP error or a transport failure has the effect of `AfterRequestFailure`; a status-0 body whose `data` is not a list, or an undecodable reply, yields nothing and changes nothing |
| Client.GetGlucoseData | app/services/librelinkup.py:247-304 | the same for the graph: a status-0 body whose `data` is an object yields that object, and only such a body yields anything; a non-zero status applies the ticket renewal; 401/403 invalidates; any other HTTP error or a transport failure has the effect of `AfterRequestFailure`; a status-0 body whose `data` is not an object, or an undecodable reply, yields nothing and changes nothing |
| Client.HasPatient | app/services/librelinkup.py:223-226 | true exactly when some connection lists the patient id |
| Client.SelectConnection | app/services/librelinkup.py:212-235 | nothing for an empty list; with a truthy target, the target exactly when some entry lists it and never another id; without one, the first entry's patient id |
| Client.SelectionExamples | app/services/librelinkup.py:212-235 | listing A, B: target B gives B, target Z gives nothing, no target or `""` gives A |
| Timestamps.ParseLlu | app/services/librelinkup.py:380-381 | whatever the recogniser accepts is a valid `datetime` (year 1-9999, real day of month, no leap second) |
| Timestamps.LluRoundTrip | app/services/librelinkup.py:380-381 | the recogniser reads back every vendor-rendered civil time exactly |
| Timestamps.FormatExample | app/services/librelinkup.py:378-380 | the vendor rendering of 2024-06-01T10:00:00 is `6/1/2024 10:00:00 AM` |
| Timestamps.ParseTimestamp | app/services/librelinkup.py:375-404 | nothing for a missing or empty string; a string in the vendor format is read as UTC, before any fallback; any other instant is the ISO parser's result on the `Z`-rewritten string, converted to UTC; nothing when the conversion overflows (the source raises there) |
| Timestamps.NormalisesLluFormat | app/services/librelinkup.py:375-384 | a vendor-rendered time normalises to the instant it denotes, whatever the ISO fallback does |
| Timestamps.FallbackOnlyAfterLlu | app/services/librelinkup.py:385-400 | the ISO parser matters only when the vendor format fails; it then sees the string with a trailing `Z` rewritten to `+00:00` and otherwise unchanged; its result, naive taken as UTC and aware converted to UTC, is the instant returned unless the conversion overflows |
| Trend.MapTrendArrow | app/services/librelinkup.py:502-530 | `NONE` exactly for `null` and for every phrase outside the table (the table's own `""` and `None` entries map to `NONE` too); the preimage of each direction is stated in `Trend.TrendPreimages` |
| Trend.TrendPreimages | app/services/librelinkup.py:513-528 | each direction is produced by exactly its listed phrases, matched exactly; everything else, `""` and `null` included, gives `NONE` |
| Trend.TrendExamples | app/services/librelinkup.py:513-528 | sample lookups, including that `stable` (lower case) is not recognised |
| Readings.ProcessLatest | app/services/librelinkup.py:417-454 | no reading exactly when the measurement is missing or empty, its timestamp does not normalise, or its value is missing; otherwise device time from the payload, capture time `now`, the value, the mapped trend and the raw measurement |
| Readings.LatestFromVendorTime | app/services/librelinkup.py:423-452 | a measurement stamped in the vendor format yields one reading at the instant that time denotes |
| Readings.LatestExample | app/services/librelinkup.py:417-454 | `6/1/2024 10:00:00 AM`, 120, `Stable` becomes a `Flat` reading at POSIX second 1717236000 |
| Readings.HistoryEntries | app/services/librelinkup.py:474-498 | at most one reading per point; each has direction `NONE`, the batch's capture time, and a kept source point |
| Readings.ProcessHistory | app/services/librelinkup.py:466-500 | nothing when `graphData` is not a list; every reading has direction `NONE` and capture time `now` |
| Readings.KeptPoints | app/services/librelinkup.py:474-485 | reference filter: a point survives exactly when both keys exist and its timestamp normalises |
| Readings.KeptIsSubsequence | app/services/librelinkup.py:474-485 | the surviving points keep their order |
| Readings.HistoryEntriesFollowKept | app/services/librelinkup.py:474-498 | the i-th history reading is made from the i-th surviving point |
| Readings.HistoryIsOrderedFilter | app/services/librelinkup.py:466-500 | the history is exactly the surviving points of `graphData`, in order, each made into a reading |
| Readings.NullValueIsKept | app/services/librelinkup.py:476-491 | a point with `Value: null` and a vendor-format timestamp is kept, as a reading without a value at the instant the timestamp denotes |
| Readings.Process | app/services/librelinkup.py:356-363 | nothing exactly when a timestamp the processors parse overflows; otherwise the latest reading and the history |
| Readings.OverflowingLatestRaises | app/services/librelinkup.py:389-401 | an ISO timestamp whose UTC conversion lies past `datetime.max` makes the processing of its measurement raise |
| Fetch.EnsureLogin | app/services/librelinkup.py:318-321 | a login call exactly when the token is not valid; a valid session is used as is; otherwise the step succeeds exactly when `login` on the first login reply does, and continues with the session that login left |
| Fetch.ConnectionsWithRetry | app/services/librelinkup.py:324-334 | one connections call, then on failure one re-login and one more call; a good first reply ends the stage at once with its list; without credentials the first call fails and the re-login follows; whenever the first call yields no non-empty list, a re-login is the second call: if it fails the stage stops with `ReloginFailed` after exactly those two calls, otherwise the connections are called once more and the stage succeeds exactly when that second call yields a non-empty list, which is then its value, and stops with `NoConnections` otherwise; a value only for a non-empty list, and it is the list of the last reply; the patient id untouched |
| Fetch.ChoosePatient | app/services/librelinkup.py:337-341 | a cached truthy patient id is kept as is; otherwise the selection's result is stored, and nothing else in the session changes |
| Fetch.GraphWithRetry | app/services/librelinkup.py:344-354 | one graph call, then on failure one re-login and one more call; a good first reply ends the stage at once with its graph; without credentials the first call fails and the re-login follows; whenever the first call yields no non-empty object, a re-login is the second call: if it fails the stage stops with `ReloginFailed` after exactly those two calls, otherwise the graph is requested once more and the stage succeeds exactly when that second call yields a non-empty object, which is then its value, and stops with `NoGlucoseData` otherwise; a value only for a non-empty object, and it is the object of the last reply |
| Fetch.SelectAndFetch | app/services/librelinkup.py:336-363 | after the connections succeeded: never a login failure; a failure returns `(None, [])`; only a falsy patient id is replaced; a graph is requested only for a truthy patient id; success returns the processing of the graph object served at the cycle's last graph call for that patient, and a processing failure is that object's processing raising |
| Fetch.FetchAndProcess | app/services/librelinkup.py:317-363 | every failure returns `(None, [])`; success returns exactly the latest reading and history processed from the graph object served at the cycle's last graph call for the session's patient; a login comes first exactly when the token is not valid; the graph stage is reached only after a connections call, and each stage is its call, optionally followed by a re-login and a second call; the cycle fails at login exactly when it never reached the connections, and then its only call was that login; a cached patient id is never overwritten; a graph is requested only for a truthy patient id; processing fails only when processing that same graph object raises |
| Fetch.CallBudget | app/services/librelinkup.py:317-354 | at most 3 logins, 2 connection calls and 2 graph calls per cycle; a successful cycle made at least one of each data call |
| Fetch.ThreeLogins | app/services/librelinkup.py:317-354 | from the initial session, an undecodable first connections reply and first graph reply make the cycle log in three times and still succeed |
| Fetch.ThreeLoginsCycle | app/services/librelinkup.py:317-360 | the cycle of that scenario call by call: login, connections, re-login, connections, graph, re-login, graph, then the processed graph |
| Fetch.ConnectionsAfterRelogin | app/services/librelinkup.py:324-331 | an undecodable first listing followed by a good one after the re-login gives that listing after three calls |
| Fetch.GraphAfterRelogin | app/services/librelinkup.py:344-351 | an undecodable first graph followed by a good one after the re-login gives that graph after three calls |
| Fetch.CachedPatientSkipsSelection | app/services/librelinkup.py:337-338 | with a cached patient id, the configured target has no influence on the cycle |
| Fetch.ConnectionsStageFails | app/services/librelinkup.py:324-334 | with connections always failing, the stage stops after a failed re-login or after exactly two attempts |
| Fetch.ConnectionsAlwaysFailing | app/services/librelinkup.py:317-334 | with connections always failing, the cycle returns `(None, [])` and never requests a graph; it fails at the first login with no data call, at the re-login after one connections call, or after exactly two connections calls around a re-login |
| Fetch.EmptyConnectionListIsRetried | app/services/librelinkup.py:324-328 | with a valid session, a status-0 empty list from the first connections call is followed by a re-login |
| Fetch.EmptyGraphIsRetried | app/services/librelinkup.py:344-348 | with a valid session and a cached patient, a status-0 empty graph object from the first graph call is followed by a re-login |
| Fetch.HappyPath | app/services/librelinkup.py:317-360 | for any session, listing and target: when the login (if the token is not valid) leaves credentials, the first listing is non-empty, the patient (the cached one, else the selection's) is truthy and its first graph is an object whose processing does not raise, the cycle succeeds with one connections call and one graph call, keeps the session the login left with that patient id, and returns the processed readings |
| Fetch.StageCounts | app/services/librelinkup.py:324-354 | one data stage makes its call once or twice and at most one login, and its own call twice exactly when it is three calls long (`Fetch.Attempts`) |
| Fetch.LoginCallPairing | app/services/librelinkup.py:104-109 | a login whose reply respects the pairing keeps it |
| Fetch.ConnectionsStagePairing | app/services/librelinkup.py:324-334 | the connections stage keeps the pairing |
| Fetch.GraphStagePairing | app/services/librelinkup.py:344-354 | the graph stage keeps the pairing |
| Fetch.CycleKeepsPairing | app/services/librelinkup.py:317-354 | a whole cycle keeps the pairing when every login reply respects it |
| EntryStore.Find | app/services/database.py:61-63 | the lookup finds a document exactly when its key is stored, and what it finds has that key |
| EntryStore.MapView | app/services/database.py:41 | under the unique index, the map view has exactly the stored keys, each mapped to what the lookup returns |
| EntryStore.InsertEntry | app/services/database.py:59-71 | writes exactly when the key is absent, appending just that entry; otherwise returns False and changes nothing |
| EntryStore.InsertIsPutIfAbsent | app/services/database.py:61-71 | on the map view insertion is put-if-absent, and the index stays unique |
| EntryStore.InsertEntries | app/services/database.py:86-95 | an empty batch writes nothing and returns 0; the count is the number of keys new to the store, at most the batch size; existing documents are never replaced; for each new key the batch's first entry with it is stored |
| EntryStore.InsertKeys | app/services/database.py:89-93 | one step of the batch loop: keys, count and the untouched prefix compose |
| EntryStore.InsertFinds | app/services/database.py:89-93 | one step of the batch loop: lookups and uniqueness compose |
| EntryStore.ReplayKeepsKeysUnique | app/services/database.py:61-71 | after any history of inserts from empty, no two documents share a `device_timestamp` |
| EntryStore.InsertByTime | app/services/database.py:136 | inserting into a time-sorted sequence keeps it sorted and adds exactly that document |
| EntryStore.SortByTime | app/services/database.py:136 | sorted ascending by capture time, and a permutation of the input |
| EntryStore.Matching | app/services/database.py:135 | each document kept as often as stored when captured at or after the bound, otherwise dropped |
| EntryStore.GetEntriesSince | app/services/database.py:132-141 | ascending by capture time, and exactly the documents captured at or after `now - hours`; empty when that bound is outside the `datetime` range |
| EntryStore.Latest | app/services/database.py:105-107 | none exactly for an empty collection; otherwise a stored document with the greatest capture time |
| EntryStore.GetLatestEntry | app/services/database.py:104-107 | none exactly for an empty collection; otherwise a stored document whose capture time (not device time) is maximal |
| EntryStore.LatestEndsWindow | app/services/database.py:104-138 | when the window holds a document, its last one has the latest document's capture time |

## Left out

- HTTP, JSON decoding and the `requests` session: each call's reply is an input
  (`Vendor.Reply`). Exceptions raised before any field is written, the JSON decode error
  among them, are one `Garbled` case.
- Logging, and the wrong-region detection in `login`, which only logs.
- Configuration (`config.py`): the base URL, credentials, default headers and
  `LINK_UP_CONNECTION` are inputs (`SessionManager.AuthenticatedHeaders` takes the
  defaults; `Fetch.Env` carries the target).
- SessionManager.AuthenticatedHeaders: SHA-256 is a parameter, and the `except` branch
  of lines 52-54 is not modelled. `str.encode` raises only for a user id holding a lone
  surrogate (a JSON `"\ud800"` escape decodes to one). A Dafny `string` holds Unicode
  scalar values only, so such an id cannot be written down in the model.
- The clock: each cycle reads one `now` (`Fetch.Env`), and all `datetime.now` calls in a
  cycle share it. Microseconds elapsing during a cycle are not modelled.
- `datetime.fromisoformat` is a parameter (`Timestamps.IsoParser`) that yields a naive or
  an offset wall time. Its grammar is not modelled; the overflow of the conversion to
  UTC is (`Timestamps.ConversionOverflows`).
- Timestamps.ParseLlu: `\d` in `strptime` also matches non-ASCII decimal digits; the
  model accepts ASCII digits only. `%p` is modelled for the C locale (`AM`/`PM`, any case).
- JSON values of an unexpected type are not modelled, and where they raise depends on
  where they are read. A connection that is not an object makes the logging in
  `select_connection` (app/services/librelinkup.py:217-218) raise when no patient id is
  cached. That call is at line 339, outside the `try` at lines 357-363, so the exception
  leaves `fetch_and_process_data` itself and the cycle returns nothing at all. A history
  point of an unexpected type is read inside that `try` (next line). Other examples: a
  non-string `Timestamp`, token or patient id; a `null` `connection` object (see
  `Client.GetGlucoseData` below); a float `expires`.
- Fetch.FetchAndProcess: the `except` branch at lines 361-363 is taken only for the
  timestamp overflow (exit `ProcessingFailed`). The processors' other raises need JSON
  values of an unexpected type, for example a history point that is a string containing
  both `Value` and `Timestamp` (the `in` test then passes and `.get` raises). Those
  values are not modelled (previous line).
- Client.GetGlucoseData: a status-0 body whose `graphData`, `connection` or
  `glucoseMeasurement` is `null`, or whose `connection` is not an object, makes the
  logging at lines 281-284 raise, so the call returns None and the cycle re-logs in. The
  model has no graph object for such a body: it is the reply `Garbled`, which
  `Client.GetGlucoseData` answers with None and an unchanged session.
- The constant entry fields `device`, `type` and `glucose_units`: they are the same for
  every entry and are not part of `Readings.Entry`.
- MongoDB itself: connection, index creation, `close`, driver exceptions (the `except`
  branches of `insert_entry`, `get_latest_entry` and `get_entries_since` that return
  False, None or []), BSON's millisecond truncation of datetimes, and concurrent writers.
  The collection is a sequence in insertion order.
- Ties in capture time: MongoDB leaves the order of equal sort keys unspecified. The model
  sorts stably and `EntryStore.Latest` takes the last inserted among equals. The contracts
  do not depend on either choice.
- EntryStore.GetEntriesSince: `hours` is any integer and the bound is
  `now - hours * 3600 s`; the `OverflowError` of an out-of-range bound returns `[]`.
  The `now` of `datetime.utcnow()` is an input.
- `get_latest_timestamp` only projects `get_latest_entry`, and `close` only closes the
  client; neither is modelled.
- The Celery task, FastAPI routes and the frontend, which call this core.

=== FILE: client.dfy ===
/** The remote client: the session effects of `login`, `get_connections` and
    `get_glucose_data`, each given the reply the server sent, and the stream selection rule. */
module Client {
  import opened Optional
  import opened Time
  import opened Vendor
  import opened SessionManager

  /** What a call returns, and the session it leaves behind. */
  datatype Step<+T> = Step(result: T, session: Session)

  /** The guards of `login` pass: status 0 and both `authTicket.token` and `user.id` present
      as keys (their values may still be `null` or empty). */
  predicate Accepted(reply: Reply<LoginBody>) {
    && reply.Body?
    && reply.body.status == Some(0)
    && reply.body.authTicket.Some? && reply.body.authTicket.value.token.Has()
    && reply.body.user.Some? && reply.body.user.value.id.Has()
  }

  /** `login`. Once the guards pass, token and user id are stored before the expiry is
      computed, so an expiry that raises leaves them stored while the call reports failure. */
  function Login(s: Session, reply: Reply<LoginBody>, now: Instant): (r: Step<bool>)
    ensures r.session.patientId == s.patientId
    ensures !Accepted(reply) ==> r == Step(false, s)
    ensures Accepted(reply) ==>
      r.session.authToken == reply.body.authTicket.value.token.Get() && r.session.userId == reply.body.user.value.id.Get()
    ensures Accepted(reply) && !r.result ==> r.session.tokenExpiresAt == s.tokenExpiresAt
  {
    if !Accepted(reply) then Step(false, s)
    else
      var ticket := reply.body.authTicket.value;
      var stored := s.(authToken := ticket.token.Get(), userId := reply.body.user.value.id.Get());
      match LoginExpiry(ticket, now)
      case Raises => Step(false, stored)
      case Expires(at) => Step(true, stored.(tokenExpiresAt := at))
  }

  /** The expiry priority of a login whose guards pass: an in-range positive `expires`; else
      an in-range positive `duration` from `now`; else no expiry — and when it fails. */
  lemma LoginExpiryPriority(s: Session, reply: Reply<LoginBody>, now: Instant)
    requires Accepted(reply)
    ensures var t := reply.body.authTicket.value; var r := Login(s, reply, now);
      && (t.expires.Present? && 0 < t.expires.value <= MaxPosixSeconds ==>
            r.result && r.session.tokenExpiresAt == Some(FromPosixSeconds(t.expires.value)))
      && ((t.expires.Absent? || (t.expires.Present? && t.expires.value <= 0)) ==>
            && (t.duration.Present? && t.duration.value > 0 && now + FromPosixSeconds(t.duration.value) <= MaxInstant ==>
                  r.result && r.session.tokenExpiresAt == Some(now + FromPosixSeconds(t.duration.value)))
            && (t.duration.Absent? || (t.duration.Present? && t.duration.value <= 0) ==>
                  r.result && r.session.tokenExpiresAt.None?))
      && (!r.result <==>
            || t.expires.Null?
            || (t.expires.Present? && t.expires.value > MaxPosixSeconds)
            || ((t.expires.Absent? || (t.expires.Present? && t.expires.value <= 0))
                && (t.duration.Null? || (t.duration.Present? && t.duration.value > 0
                                         && now + FromPosixSeconds(t.duration.value) > MaxInstant))))
  {
  }

  /** A login reply whose token and user id agree in truthiness (when the guards pass). */
  predicate PairedLogin(reply: Reply<LoginBody>) {
    Accepted(reply) ==>
      (Truthy(reply.body.authTicket.value.token.Get()) <==> Truthy(reply.body.user.value.id.Get()))
  }

  /** `login` keeps the pairing invariant exactly when the reply's token and id agree: the
      source checks their keys, not their values. */
  lemma LoginPairing(s: Session, reply: Reply<LoginBody>, now: Instant)
    requires Paired(s)
    ensures Paired(Login(s, reply, now).session) <==> PairedLogin(reply)
  {
  }

  /** A concrete reply the guards accept although its token is `null`: the user id is stored
      without a token. */
  lemma LoginCanUnpair(now: Instant)
    ensures var reply := Body(LoginBody(Some(0), Some(AuthTicket(Null, Present(1), Absent)), Some(User(Present("u")))));
      var r := Login(Initial, reply, now);
      r.result && r.session.userId == Some("u") && r.session.authToken.None? && !Paired(r.session)
  {
  }

  /** `get_connections`. No request is made without headers. A soft failure applies a
      renewed ticket; 401/403 invalidates; a `data` that is not a list is a failure. */
  function GetConnections(s: Session, reply: Reply<ConnectionsBody>): (r: Step<Option<seq<Connection>>>)
    ensures !LoggedIn(s) ==> r == Step(None, s)
    ensures r.result.Some? ==>
      reply.Body? && reply.body.status == Some(0) && reply.body.data == ConnectionList(r.result.value) && r.session == s
    ensures DataCallEffect(s, r.session)
    ensures LoggedIn(s) && (reply == RequestFailed(Some(401)) || reply == RequestFailed(Some(403))) ==>
              r == Step(None, Invalidate(s))
    ensures LoggedIn(s) && reply.Body? && reply.body.status == Some(0) && reply.body.data.ConnectionList? ==>
              r == Step(Some(reply.body.data.items), s)
    ensures LoggedIn(s) && reply.Body? && reply.body.status != Some(0) ==>
              r == Step(None, ApplyRenewal(s, reply.body.ticket))
    ensures reply.Garbled? ==> r == Step(None, s)
    ensures LoggedIn(s) && reply.RequestFailed? ==> r == Step(None, AfterRequestFailure(s, reply.httpStatus))
    ensures LoggedIn(s) && reply.Body? && reply.body.status == Some(0) && reply.body.data.NotAList? ==> r == Step(None, s)
  {
    if !LoggedIn(s) then Step(None, s)
    else match reply
      case RequestFailed(code) => Step(None, AfterRequestFailure(s, code))
      case Garbled => Step(None, s)
      case Body(b) =>
        if b.status != Some(0) then Step(None, ApplyRenewal(s, b.ticket))
        else match b.data
          case ConnectionList(items) => Step(Some(items), s)
          case NotAList => Step(None, s)
  }

  /** `get_glucose_data` (the patient id only shapes the URL). Same failure handling as
      `get_connections`; a `data` that is not an object is a failure, `{}` is returned. */
  function GetGlucoseData(s: Session, reply: Reply<GraphBody>): (r: Step<Option<GraphDict>>)
    ensures !LoggedIn(s) ==> r == Step(None, s)
    ensures r.result.Some? ==>
      reply.Body? && reply.body.status == Some(0) && reply.body.data == GraphObject(r.result.value) && r.session == s
    ensures DataCallEffect(s, r.session)
    ensures LoggedIn(s) && (reply == RequestFailed(Some(401)) || reply == RequestFailed(Some(403))) ==>
              r == Step(None, Invalidate(s))
    ensures LoggedIn(s) && reply.Body? && reply.body.status == Some(0) && reply.body.data.GraphObject? ==>
              r == Step(Some(reply.body.data.dict), s)
    ensures LoggedIn(s) && reply.Body? && reply.body.status != Some(0) ==>
              r == Step(None, ApplyRenewal(s, reply.body.ticket))
    ensures reply.Garbled? ==> r == Step(None, s)
    ensures LoggedIn(s) && reply.RequestFailed? ==> r == Step(None, AfterRequestFailure(s, reply.httpStatus))
    ensures LoggedIn(s) && reply.Body? && reply.body.status == Some(0) && reply.body.data.NotADict? ==> r == Step(None, s)
  {
    if !LoggedIn(s) then Step(None, s)
    else match reply
      case RequestFailed(code) => Step(None, AfterRequestFailure(s, code))
      case Garbled => Step(None, s)
      case Body(b) =>
        if b.status != Some(0) then Step(None, ApplyRenewal(s, b.ticket))
        else match b.data
          case GraphObject(d) => Step(Some(d), s)
          case NotADict => Step(None, s)
  }

  /** Whether some connection lists the given patient id. */
  function HasPatient(conns: seq<Connection>, id: string): (b: bool)
    ensures b <==> exists i :: 0 <= i < |conns| && conns[i].patientId == Some(id)
  {
    if conns == [] then false
    else conns[0].patientId == Some(id) || HasPatient(conns[1..], id)
  }

  /** `select_connection`: nothing for an empty list; with a configured (truthy) target, that
      target exactly when some entry lists it, never another entry; with no target, the first
      entry's `patientId` (which may itself be missing). */
  function SelectConnection(conns: seq<Connection>, target: Option<string>): (r: Option<string>)
    ensures conns == [] ==> r.None?
    ensures conns != [] && Truthy(target) ==>
      (r.Some? <==> exists i :: 0 <= i < |conns| && conns[i].patientId == target)
      && (r.Some? ==> r == target)
    ensures conns != [] && !Truthy(target) ==> r == conns[0].patientId
  {
    if conns == [] then None
    else if Truthy(target) then (if HasPatient(conns, target.value) then target else None)
    else conns[0].patientId
  }

  /** Selection over a listing of two patients, A and B. */
  lemma SelectionExamples()
    ensures var conns := [Connection(Some("A")), Connection(Some("B"))];
      && SelectConnection(conns, Some("B")) == Some("B")
      && SelectConnection(conns, Some("Z")).None?
      && SelectConnection(conns, None) == Some("A")
      && SelectConnection(conns, Some("")) == Some("A")
  {
    var conns := [Connection(Some("A")), Connection(Some("B"))];
    assert conns[1].patientId == Some("B");
  }
}

=== FILE: decimal.dfy ===
/** ASCII decimal numerals: scanning a leading digit run, its value, and printing naturals. */
module Decimal {

  predicate IsDigit(c: char) {
    '0' <= c <= '9'
  }

  predicate AllDigits(s: string) {
    forall i :: 0 <= i < |s| ==> IsDigit(s[i])
  }

  function DigitValue(c: char): nat
    requires IsDigit(c)
  {
    c as int - '0' as int
  }

  function DigitChar(d: nat): (c: char)
    requires d < 10
    ensures IsDigit(c) && DigitValue(c) == d
  {
    ('0' as int + d) as char
  }

  /** The value of a numeral; leading zeros are allowed, as Python's `int` allows them. */
  function ValueOf(s: string): nat
    requires AllDigits(s)
    decreases |s|
  {
    if s == [] then 0 else ValueOf(s[..|s| - 1]) * 10 + DigitValue(s[|s| - 1])
  }

  /** The shortest numeral of `n`. */
  function Digits(n: nat): (s: string)
    ensures AllDigits(s) && |s| >= 1
    ensures n < 10 ==> |s| == 1
    ensures n < 100 ==> |s| <= 2
    ensures n < 10000 ==> |s| <= 4
  {
    if n < 10 then [DigitChar(n)] else Digits(n / 10) + [DigitChar(n % 10)]
  }

  /** `n` written with at least `width` digits, left-padded with zeros (`%02d`, `%04d`). */
  function Padded(n: nat, width: nat): (s: string)
    ensures AllDigits(s)
    ensures |s| == if |Digits(n)| < width then width else |Digits(n)|
    decreases width
  {
    if |Digits(n)| < width then "0" + Padded(n, width - 1) else Digits(n)
  }

  /** Length of the leading run of ASCII digits. */
  function LeadingDigits(s: string): (k: nat)
    ensures k <= |s| && AllDigits(s[..k])
    ensures k < |s| ==> !IsDigit(s[k])
  {
    if s == [] || !IsDigit(s[0]) then 0 else 1 + LeadingDigits(s[1..])
  }

  lemma {:induction false} ValueOfDigits(n: nat)
    ensures ValueOf(Digits(n)) == n
  {
    if n >= 10 {
      var d := Digits(n / 10);
      var s := d + [DigitChar(n % 10)];
      assert s[..|s| - 1] == d;
      ValueOfDigits(n / 10);
    }
  }

  /** Leading zeros do not change a numeral's value. */
  lemma {:induction false} ValueOfZeroPrefix(s: string)
    requires AllDigits(s)
    ensures ValueOf("0" + s) == ValueOf(s)
    decreases |s|
  {
    if s != [] {
      var t := "0" + s;
      assert t[..|t| - 1] == "0" + s[..|s| - 1];
      ValueOfZeroPrefix(s[..|s| - 1]);
    } else {
      assert ("0" + s)[..0] == [];
    }
  }

  lemma {:induction false} ValueOfPadded(n: nat, width: nat)
    ensures ValueOf(Padded(n, width)) == n
    decreases width
  {
    if |Digits(n)| < width {
      ValueOfPadded(n, width - 1);
      ValueOfZeroPrefix(Padded(n, width - 1));
    } else {
      ValueOfDigits(n);
    }
  }

  /** A digit run followed by a non-digit (or nothing) is scanned exactly. */
  lemma {:induction false} LeadingDigitsOf(d: string, rest: string)
    requires AllDigits(d)
    requires rest == [] || !IsDigit(rest[0])
    ensures LeadingDigits(d + rest) == |d|
    decreases |d|
  {
    if d != [] {
      assert (d + rest)[1..] == d[1..] + rest;
      LeadingDigitsOf(d[1..], rest);
    } else {
      assert d + rest == rest;
    }
  }

  /** The numerals of one vendor timestamp. */
  lemma NumeralExamples()
    ensures Digits(1) == "1" && Digits(6) == "6" && Digits(10) == "10"
    ensures Padded(2024, 4) == "2024" && Padded(0, 2) == "00"
  {
    assert DigitChar(0) == '0' && DigitChar(1) == '1' && DigitChar(2) == '2';
    assert DigitChar(4) == '4' && DigitChar(6) == '6';
    assert Digits(20) == Digits(2) + "0" == "20";
    assert Digits(202) == Digits(20) + "2" == "202";
    assert Digits(2024) == Digits(202) + "4" == "2024";
    assert Padded(0, 1) == "0";
  }
}

=== FILE: fetch.dfy ===
/** The fetch orchestrator `fetch_and_process_data`: login if needed, list connections,
    select a patient, fetch the graph, each data call with one re-login retry. */
module Fetch {
  import opened Optional
  import opened Time
  import opened Vendor
  import opened Timestamps
  import opened Readings
  import opened SessionManager
  import opened Client

  /** The service methods a cycle invokes, in order. */
  datatype Call = LoginCall | ConnectionsCall | GraphCall

  /** A scripted server: the reply to the k-th invocation of each endpoint in one cycle
      (k counts from 0); the graph reply may depend on the patient id in the URL. */
  datatype Remote = Remote(
    login: nat -> Reply<LoginBody>,
    connections: nat -> Reply<ConnectionsBody>,
    graph: (nat, string) -> Reply<GraphBody>)

  /** The cycle's surroundings: the clock reading, the configured patient id
      (`LINK_UP_CONNECTION`), and the ISO-8601 fallback parser. */
  datatype Env = Env(now: Instant, target: Option<string>, iso: IsoParser)

  /** Which return statement ended the cycle; `ProcessingFailed` is the `except` branch of
      the processing step. */
  datatype Exit = Done | LoginFailed | ReloginFailed | NoConnections | NoPatient | NoGlucoseData | ProcessingFailed

  /** The result pair of `fetch_and_process_data`, the session it leaves, and the service
      calls made: the initial login (if any), the connections stage, the graph stage. */
  datatype Cycle = Cycle(
    latest: Option<Entry>, history: seq<Entry>, session: Session,
    prelude: seq<Call>, listing: seq<Call>, graph: seq<Call>, exit: Exit)
  {
    /** Every call of the cycle, in order. */
    function Calls(): seq<Call> {
      prelude + listing + graph
    }
  }

  /** The session and how many times each endpoint has been invoked so far. */
  datatype Ctx = Ctx(session: Session, logins: nat, connections: nat, graphs: nat)

  datatype Attempt<+T> = Attempt(value: T, ctx: Ctx)

  /** The outcome of a stage with the calls it made: a value to go on with, or the exit the
      cycle takes. */
  datatype Staged<+T> = Go(value: T, ctx: Ctx, calls: seq<Call>) | Stop(exit: Exit, ctx: Ctx, calls: seq<Call>)

  /** How many times `c` occurs in the calls. */
  function Count(t: seq<Call>, c: Call): nat {
    if t == [] then 0
    else Count(t[..|t| - 1], c) + (if t[|t| - 1] == c then 1 else 0)
  }

  lemma {:induction false} CountConcat(a: seq<Call>, b: seq<Call>, c: Call)
    ensures Count(a + b, c) == Count(a, c) + Count(b, c)
    decreases |b|
  {
    if b == [] {
      assert a + b == a;
    } else {
      var b' := b[..|b| - 1];
      assert (a + b)[..|a + b| - 1] == a + b';
      CountConcat(a, b', c);
    }
  }

  function CallLogin(x: Ctx, now: Instant, remote: Remote): (r: Attempt<bool>)
    ensures r.ctx.connections == x.connections && r.ctx.graphs == x.graphs
  {
    var r := Login(x.session, remote.login(x.logins), now);
    Attempt(r.result, x.(session := r.session, logins := x.logins + 1))
  }

  function CallConnections(x: Ctx, remote: Remote): (r: Attempt<Option<seq<Connection>>>)
    ensures r.ctx.logins == x.logins && r.ctx.graphs == x.graphs
  {
    var r := GetConnections(x.session, remote.connections(x.connections));
    Attempt(r.result, x.(session := r.session, connections := x.connections + 1))
  }

  function CallGraph(x: Ctx, patientId: string, remote: Remote): (r: Attempt<Option<GraphDict>>)
    ensures r.ctx.logins == x.logins && r.ctx.connections == x.connections
  {
    var r := GetGlucoseData(x.session, remote.graph(x.graphs, patientId));
    Attempt(r.result, x.(session := r.session, graphs := x.graphs + 1))
  }

  /** The reply is a status-0 body whose `data` is exactly this list. */
  predicate ServedConnections(reply: Reply<ConnectionsBody>, items: seq<Connection>) {
    reply.Body? && reply.body.status == Some(0) && reply.body.data == ConnectionList(items)
  }

  /** The reply is a status-0 body whose `data` is exactly this object. */
  predicate ServedGraph(reply: Reply<GraphBody>, g: GraphDict) {
    reply.Body? && reply.body.status == Some(0) && reply.body.data == GraphObject(g)
  }

  /** The reply is a status-0 body whose `data` is an object. */
  predicate IsGraphObject(reply: Reply<GraphBody>) {
    reply.Body? && reply.body.status == Some(0) && reply.body.data.GraphObject?
  }

  /** Python truthiness of the two data results: `None`, `[]` and `{}` are all failures. */
  predicate GotConnections(r: Option<seq<Connection>>) {
    r.Some? && r.value != []
  }

  predicate GotGraph(r: Option<GraphDict>) {
    r.Some? && r.value.Graph?
  }

  /** What one data step with its retry may call: the call, the call then a failed
      re-login, or the call, a re-login and the call again. */
  predicate Stage(t: seq<Call>, c: Call) {
    t == [c] || t == [c, LoginCall] || t == [c, LoginCall, c]
  }

  /** How often a stage made its own call: twice exactly when it re-logged in and called again. */
  function Attempts(t: seq<Call>): nat {
    if |t| == 3 then 2 else 1
  }

  /** The connections step with its one retry. */
  function ConnectionsWithRetry(x: Ctx, now: Instant, remote: Remote): (r: Staged<seq<Connection>>)
    ensures Stage(r.calls, ConnectionsCall)
    ensures r.Go? ==> r.value != [] && r.calls[|r.calls| - 1] == ConnectionsCall
    ensures r.Go? ==> x.connections < r.ctx.connections && ServedConnections(remote.connections(r.ctx.connections - 1), r.value)
    ensures var reply := remote.connections(x.connections);
      LoggedIn(x.session) && reply.Body? && reply.body.status == Some(0) && reply.body.data.ConnectionList? && reply.body.data.items != [] ==>
        r == Go(reply.body.data.items, x.(connections := x.connections + 1), [ConnectionsCall])
    ensures !LoggedIn(x.session) ==> |r.calls| >= 2
    ensures r.Stop? ==> r.exit == ReloginFailed || r.exit == NoConnections
    ensures r.ctx.session.patientId == x.session.patientId
    ensures r.ctx.graphs == x.graphs
    ensures var first := GetConnections(x.session, remote.connections(x.connections));
      !GotConnections(first.result) ==> |r.calls| >= 2 && r.calls[1] == LoginCall
    ensures var first := GetConnections(x.session, remote.connections(x.connections));
      var relog := Login(first.session, remote.login(x.logins), now);
      !GotConnections(first.result) && !relog.result ==>
        r == Stop(ReloginFailed, x.(session := relog.session, logins := x.logins + 1, connections := x.connections + 1),
                  [ConnectionsCall, LoginCall])
    ensures var first := GetConnections(x.session, remote.connections(x.connections));
      var relog := Login(first.session, remote.login(x.logins), now);
      var second := GetConnections(relog.session, remote.connections(x.connections + 1));
      !GotConnections(first.result) && relog.result ==>
        && r.calls == [ConnectionsCall, LoginCall, ConnectionsCall]
        && r.ctx == Ctx(second.session, x.logins + 1, x.connections + 2, x.graphs)
        && (r.Go? <==> GotConnections(second.result))
        && (r.Go? ==> r.value == second.result.value)
        && (r.Stop? ==> r.exit == NoConnections)
  {
    var first := CallConnections(x, remote);
    if GotConnections(first.value) then Go(first.value.value, first.ctx, [ConnectionsCall])
    else
      var relogin := CallLogin(first.ctx, now, remote);
      if !relogin.value then Stop(ReloginFailed, relogin.ctx, [ConnectionsCall, LoginCall])
      else
        var second := CallConnections(relogin.ctx, remote);
        var calls := [ConnectionsCall, LoginCall, ConnectionsCall];
        if GotConnections(second.value) then Go(second.value.value, second.ctx, calls)
        else Stop(NoConnections, second.ctx, calls)
  }

  /** The graph step with its one retry, for the session's (truthy) patient id. */
  function GraphWithRetry(x: Ctx, now: Instant, remote: Remote): (r: Staged<GraphDict>)
    requires Truthy(x.session.patientId)
    ensures Stage(r.calls, GraphCall)
    ensures r.ctx.graphs == x.graphs + Attempts(r.calls)
    ensures r.Go? ==> r.value.Graph? && r.calls[|r.calls| - 1] == GraphCall
    ensures r.Go? ==> x.graphs < r.ctx.graphs && ServedGraph(remote.graph(r.ctx.graphs - 1, x.session.patientId.value), r.value)
    ensures var reply := remote.graph(x.graphs, x.session.patientId.value);
      LoggedIn(x.session) && reply.Body? && reply.body.status == Some(0) && reply.body.data.GraphObject? && reply.body.data.dict.Graph? ==>
        r == Go(reply.body.data.dict, x.(graphs := x.graphs + 1), [GraphCall])
    ensures !LoggedIn(x.session) ==> |r.calls| >= 2
    ensures r.Stop? ==> r.exit == ReloginFailed || r.exit == NoGlucoseData
    ensures r.ctx.session.patientId == x.session.patientId
    ensures var first := GetGlucoseData(x.session, remote.graph(x.graphs, x.session.patientId.value));
      !GotGraph(first.result) ==> |r.calls| >= 2 && r.calls[1] == LoginCall
    ensures var first := GetGlucoseData(x.session, remote.graph(x.graphs, x.session.patientId.value));
      var relog := Login(first.session, remote.login(x.logins), now);
      !GotGraph(first.result) && !relog.result ==>
        r == Stop(ReloginFailed, x.(session := relog.session, logins := x.logins + 1, graphs := x.graphs + 1),
                  [GraphCall, LoginCall])
    ensures var first := GetGlucoseData(x.session, remote.graph(x.graphs, x.session.patientId.value));
      var relog := Login(first.session, remote.login(x.logins), now);
      var second := GetGlucoseData(relog.session, remote.graph(x.graphs + 1, x.session.patientId.value));
      !GotGraph(first.result) && relog.result ==>
        && r.calls == [GraphCall, LoginCall, GraphCall]
        && r.ctx == Ctx(second.session, x.logins + 1, x.connections, x.graphs + 2)
        && (r.Go? <==> GotGraph(second.result))
        && (r.Go? ==> r.value == second.result.value)
        && (r.Stop? ==> r.exit == NoGlucoseData)
  {
    var pid := x.session.patientId.value;
    var first := CallGraph(x, pid, remote);
    if GotGraph(first.value) then Go(first.value.value, first.ctx, [GraphCall])
    else
      var relogin := CallLogin(first.ctx, now, remote);
      if !relogin.value then Stop(ReloginFailed, relogin.ctx, [GraphCall, LoginCall])
      else
        var second := CallGraph(relogin.ctx, pid, remote);
        var calls := [GraphCall, LoginCall, GraphCall];
        if GotGraph(second.value) then Go(second.value.value, second.ctx, calls)
        else Stop(NoGlucoseData, second.ctx, calls)
  }

  /** The calls made before the connections stage: a login exactly when the token is not valid. */
  function Prelude(s: Session, now: Instant): seq<Call> {
    if IsTokenValid(s, now) then [] else [LoginCall]
  }

  /** Step 1: log in unless the token is still valid. */
  function EnsureLogin(s: Session, now: Instant, remote: Remote): (r: Attempt<bool>)
    ensures r.ctx.logins == |Prelude(s, now)| && r.ctx.connections == 0 && r.ctx.graphs == 0
    ensures IsTokenValid(s, now) ==> r == Attempt(true, Ctx(s, 0, 0, 0))
    ensures !IsTokenValid(s, now) ==>
      r.value == Login(s, remote.login(0), now).result && r.ctx.session == Login(s, remote.login(0), now).session
    ensures r.ctx.session.patientId == s.patientId
  {
    var start := Ctx(s, 0, 0, 0);
    if IsTokenValid(s, now) then Attempt(true, start) else CallLogin(start, now, remote)
  }

  /** Step 3: keep a cached (truthy) patient id, otherwise store whatever selection yields. */
  function ChoosePatient(x: Ctx, conns: seq<Connection>, target: Option<string>): (y: Ctx)
    ensures y.logins == x.logins && y.connections == x.connections && y.graphs == x.graphs
    ensures Truthy(x.session.patientId) ==> y == x
    ensures !Truthy(x.session.patientId) ==> y.session.patientId == SelectConnection(conns, target)
    ensures y.session == x.session.(patientId := y.session.patientId)
  {
    if Truthy(x.session.patientId) then x
    else x.(session := x.session.(patientId := SelectConnection(conns, target)))
  }

  /** The retry policy as a shape of the two data stages: the graph stage is reached only
      after a connections call succeeded. */
  predicate PolicyShape(cs: seq<Call>, gs: seq<Call>) {
    && (cs == [] ==> gs == [])
    && (cs != [] ==> Stage(cs, ConnectionsCall))
    && (gs != [] ==> Stage(gs, GraphCall) && cs[|cs| - 1] == ConnectionsCall)
  }

  function Fail(exit: Exit, x: Ctx, pre: seq<Call>, cs: seq<Call>, gs: seq<Call>): (c: Cycle)
    ensures c.latest.None? && c.history == [] && c.exit == exit
  {
    Cycle(None, [], x.session, pre, cs, gs, exit)
  }

  /** Steps 3 and 4 once connections were obtained, before any graph request of the cycle:
      choose the patient, fetch the graph with its retry, and process it. */
  function SelectAndFetch(x: Ctx, conns: seq<Connection>, env: Env, remote: Remote, pre: seq<Call>, cs: seq<Call>): (c: Cycle)
    requires x.graphs == 0
    ensures c.exit != Done ==> c.latest.None? && c.history == []
    ensures c.exit != LoginFailed
    ensures c.prelude == pre && c.listing == cs
    ensures c.session.patientId != x.session.patientId ==> !Truthy(x.session.patientId)
    ensures c.graph == [] || Stage(c.graph, GraphCall)
    ensures c.exit == Done || c.exit == ProcessingFailed ==> c.graph != [] && c.graph[|c.graph| - 1] == GraphCall
    ensures c.graph != [] ==> Truthy(c.session.patientId)
    ensures c.exit == Done ==> var reply := remote.graph(Attempts(c.graph) - 1, c.session.patientId.value);
      && IsGraphObject(reply)
      && Process(reply.body.data.dict, env.now, env.iso) == Some((c.latest, c.history))
    ensures c.exit == ProcessingFailed ==> var reply := remote.graph(Attempts(c.graph) - 1, c.session.patientId.value);
      IsGraphObject(reply) && ProcessingRaises(reply.body.data.dict, env.iso)
  {
    var chosen := ChoosePatient(x, conns, env.target);
    if !Truthy(chosen.session.patientId) then Fail(NoPatient, chosen, pre, cs, [])
    else match GraphWithRetry(chosen, env.now, remote)
      case Stop(exit, y, gs) => Fail(exit, y, pre, cs, gs)
      case Go(g, y, gs) =>
        var reply := remote.graph(Attempts(gs) - 1, y.session.patientId.value);
        assert ServedGraph(reply, g);
        assert IsGraphObject(reply) && reply.body.data.dict == g;
        match Process(g, env.now, env.iso)
        case None => Fail(ProcessingFailed, y, pre, cs, gs)
        case Some((latest, history)) => Cycle(latest, history, y.session, pre, cs, gs, Done)
  }

  /** `fetch_and_process_data` for one cycle. Every failure returns `(None, [])`; success
      returns what the processors make of a graph the server sent for the session's
      patient; a login comes first exactly when the token is not valid; the data calls
      follow `PolicyShape`; the cycle fails at login exactly when it never reached the
      connections; a cached patient id is kept and only a missing one is ever written; a
      graph is requested only for a truthy patient id. */
  function FetchAndProcess(s: Session, env: Env, remote: Remote): (c: Cycle)
    ensures c.exit != Done ==> c.latest.None? && c.history == []
    ensures c.prelude == Prelude(s, env.now)
    ensures PolicyShape(c.listing, c.graph)
    ensures c.exit == LoginFailed <==> c.listing == []
    ensures c.exit == LoginFailed ==> c.prelude == [LoginCall]
    ensures c.exit == Done || c.exit == ProcessingFailed ==> c.graph != [] && c.graph[|c.graph| - 1] == GraphCall
    ensures c.session.patientId != s.patientId ==> !Truthy(s.patientId)
    ensures c.graph != [] ==> Truthy(c.session.patientId)
    ensures c.exit == Done ==> var reply := remote.graph(Attempts(c.graph) - 1, c.session.patientId.value);
      && IsGraphObject(reply)
      && Process(reply.body.data.dict, env.now, env.iso) == Some((c.latest, c.history))
    ensures c.exit == ProcessingFailed ==> var reply := remote.graph(Attempts(c.graph) - 1, c.session.patientId.value);
      IsGraphObject(reply) && ProcessingRaises(reply.body.data.dict, env.iso)
  {
    var pre := Prelude(s, env.now);
    var logged := EnsureLogin(s, env.now, remote);
    if !logged.value then Fail(LoginFailed, logged.ctx, pre, [], [])
    else match ConnectionsWithRetry(logged.ctx, env.now, remote)
      case Stop(exit, x, cs) => Fail(exit, x, pre, cs, [])
      case Go(conns, x, cs) =>
        SelectAndFetch(x, conns, env, remote, pre, cs)
  }

  /** The calls of one stage: the stage's own call once or twice, and at most one login. */
  lemma StageCounts(t: seq<Call>, c: Call, d: Call)
    requires Stage(t, c) && c != LoginCall && d != c && d != LoginCall
    ensures 1 <= Count(t, c) <= 2 && Count(t, LoginCall) <= 1 && Count(t, d) == 0
    ensures Count(t, c) == Attempts(t)
  {
    assert [c, LoginCall][..1] == [c];
    assert [c, LoginCall, c][..2] == [c, LoginCall];
  }

  /** The call budget of one cycle: at most 3 logins, 2 connection calls and 2 graph calls;
      a successful cycle made at least one of each data call. */
  lemma CallBudget(s: Session, env: Env, remote: Remote)
    ensures var c := FetchAndProcess(s, env, remote);
      && Count(c.Calls(), LoginCall) <= 3
      && Count(c.Calls(), ConnectionsCall) <= 2
      && Count(c.Calls(), GraphCall) <= 2
      && (c.exit == Done ==> Count(c.Calls(), ConnectionsCall) >= 1 && Count(c.Calls(), GraphCall) >= 1)
  {
    var c := FetchAndProcess(s, env, remote);
    forall k: Call
      ensures Count(c.Calls(), k) == Count(c.prelude, k) + Count(c.listing, k) + Count(c.graph, k)
    {
      CountConcat(c.prelude + c.listing, c.graph, k);
      CountConcat(c.prelude, c.listing, k);
    }
    assert Count(c.prelude, LoginCall) <= 1 && Count(c.prelude, ConnectionsCall) == 0 && Count(c.prelude, GraphCall) == 0;
    if c.listing != [] {
      StageCounts(c.listing, ConnectionsCall, GraphCall);
    }
    if c.graph != [] {
      StageCounts(c.graph, GraphCall, ConnectionsCall);
    }
  }

  /** Selection is skipped when a patient id is cached: the configured target then has no
      influence on anything the cycle does. */
  lemma CachedPatientSkipsSelection(s: Session, env: Env, target: Option<string>, remote: Remote)
    requires Truthy(s.patientId)
    ensures FetchAndProcess(s, env, remote) == FetchAndProcess(s, env.(target := target), remote)
  {
    var logged := EnsureLogin(s, env.now, remote);
    if logged.value {
      var cr := ConnectionsWithRetry(logged.ctx, env.now, remote);
      if cr.Go? {
        assert ChoosePatient(cr.ctx, cr.value, env.target) == cr.ctx == ChoosePatient(cr.ctx, cr.value, target);
      }
    }
  }

  /** A connections reply that `fetch_and_process_data` treats as a failure: anything but a
      status-0 body holding a non-empty list. */
  predicate ConnectionsFailure(reply: Reply<ConnectionsBody>) {
    !(reply.Body? && reply.body.status == Some(0) && reply.body.data.ConnectionList? && reply.body.data.items != [])
  }

  /** When every connections reply is a failure, the connections stage stops, after the
      re-login when that fails and after the second attempt otherwise. */
  lemma ConnectionsStageFails(x: Ctx, now: Instant, remote: Remote)
    requires forall k :: ConnectionsFailure(remote.connections(k))
    ensures var r := ConnectionsWithRetry(x, now, remote);
      && r.Stop?
      && (r.exit == ReloginFailed <==> r.calls == [ConnectionsCall, LoginCall])
      && (r.exit == NoConnections <==> r.calls == [ConnectionsCall, LoginCall, ConnectionsCall])
  {
    assert ConnectionsFailure(remote.connections(x.connections));
    var first := CallConnections(x, remote);
    var relogin := CallLogin(first.ctx, now, remote);
    assert ConnectionsFailure(remote.connections(relogin.ctx.connections));
  }

  /** When the connections endpoint fails on every call, the cycle fails with `(None, [])`
      and never asks for a graph: it stops at the first login, at the re-login, or after
      exactly two connection attempts around a successful re-login. */
  lemma ConnectionsAlwaysFailing(s: Session, env: Env, remote: Remote)
    requires forall k :: ConnectionsFailure(remote.connections(k))
    ensures var c := FetchAndProcess(s, env, remote);
      && c.latest.None? && c.history == [] && c.graph == []
      && (c.exit == LoginFailed ==> c.prelude == [LoginCall] && c.listing == [])
      && (c.exit == ReloginFailed ==> c.listing == [ConnectionsCall, LoginCall])
      && (c.exit == NoConnections ==> c.listing == [ConnectionsCall, LoginCall, ConnectionsCall])
      && (c.exit == LoginFailed || c.exit == ReloginFailed || c.exit == NoConnections)
  {
    var logged := EnsureLogin(s, env.now, remote);
    if logged.value {
      ConnectionsStageFails(logged.ctx, env.now, remote);
    }
  }

  /** An empty connection list counts as a failure: with a valid session, the call after
      it is a re-login. */
  lemma EmptyConnectionListIsRetried(s: Session, env: Env, remote: Remote, ticket: Option<Ticket>)
    requires IsTokenValid(s, env.now) && LoggedIn(s)
    requires remote.connections(0) == Body(ConnectionsBody(Some(0), ticket, ConnectionList([])))
    ensures var c := FetchAndProcess(s, env, remote);
      c.prelude == [] && |c.listing| >= 2 && c.listing[0] == ConnectionsCall && c.listing[1] == LoginCall
  {
    var x := Ctx(s, 0, 0, 0);
    assert !GotConnections(CallConnections(x, remote).value);
  }

  /** An empty graph object counts as a failure: the graph call is followed by a re-login. */
  lemma EmptyGraphIsRetried(s: Session, env: Env, remote: Remote, ticket: Option<Ticket>)
    requires IsTokenValid(s, env.now) && LoggedIn(s) && Truthy(s.patientId)
    requires remote.connections(0) == Body(ConnectionsBody(Some(0), ticket, ConnectionList([Connection(s.patientId)])))
    requires remote.graph(0, s.patientId.value) == Body(GraphBody(Some(0), ticket, GraphObject(EmptyDict)))
    ensures var c := FetchAndProcess(s, env, remote);
      c.prelude == [] && c.listing == [ConnectionsCall] && |c.graph| >= 2 && c.graph[0] == GraphCall && c.graph[1] == LoginCall
  {
    var x := Ctx(s, 0, 0, 0);
    var cr := ConnectionsWithRetry(x, env.now, remote);
    assert cr == Go([Connection(s.patientId)], x.(connections := 1), [ConnectionsCall]);
    assert !GotGraph(CallGraph(cr.ctx, s.patientId.value, remote).value);
  }

  /** The uneventful cycle, for any session, listing and target: when the login (if one is
      due) leaves credentials, the first listing is non-empty, the patient (the cached one, or
      else the selection's) is truthy and its first graph is an object that processes, the
      cycle makes one call per data step and returns what the processors make of that graph,
      for the session the login left with that patient id. */
  lemma HappyPath(s: Session, env: Env, remote: Remote, items: seq<Connection>, g: GraphDict)
    requires var relog := Login(s, remote.login(0), env.now);
      if IsTokenValid(s, env.now) then LoggedIn(s) else relog.result && LoggedIn(relog.session)
    requires items != [] && ServedConnections(remote.connections(0), items)
    requires var pid := if Truthy(s.patientId) then s.patientId else SelectConnection(items, env.target);
      Truthy(pid) && g.Graph? && ServedGraph(remote.graph(0, pid.value), g) && !ProcessingRaises(g, env.iso)
    ensures var s1 := if IsTokenValid(s, env.now) then s else Login(s, remote.login(0), env.now).session;
      var pid := if Truthy(s.patientId) then s.patientId else SelectConnection(items, env.target);
      FetchAndProcess(s, env, remote)
      == Cycle(ProcessLatest(g, env.now, env.iso), ProcessHistory(g, env.now, env.iso),
               s1.(patientId := pid), Prelude(s, env.now), [ConnectionsCall], [GraphCall], Done)
  {
    var s1 := if IsTokenValid(s, env.now) then s else Login(s, remote.login(0), env.now).session;
    var pid := if Truthy(s.patientId) then s.patientId else SelectConnection(items, env.target);
    var logged := EnsureLogin(s, env.now, remote);
    assert logged.value && logged.ctx == Ctx(s1, |Prelude(s, env.now)|, 0, 0);
    var x := logged.ctx;
    var cr := ConnectionsWithRetry(x, env.now, remote);
    assert cr == Go(items, x.(connections := 1), [ConnectionsCall]);
    var chosen := ChoosePatient(cr.ctx, items, env.target);
    assert chosen.session == s1.(patientId := pid);
    var gr := GraphWithRetry(chosen, env.now, remote);
    assert gr == Go(g, chosen.(graphs := 1), [GraphCall]);
    assert Process(g, env.now, env.iso) == Some((ProcessLatest(g, env.now, env.iso), ProcessHistory(g, env.now, env.iso)));
  }

  /** A login reply the guards accept, with neither `expires` nor `duration`. */
  const PlainLogin: Reply<LoginBody> :=
    Body(LoginBody(Some(0), Some(AuthTicket(Present("t"), Absent, Absent)), Some(User(Present("u")))))

  /** The session a `PlainLogin` leaves: its credentials, no expiry, the patient kept. */
  function PlainSession(patientId: Option<string>): Session {
    Session(Some("t"), Some("u"), None, patientId)
  }

  lemma PlainLoginStep(x: Ctx, now: Instant, remote: Remote)
    requires remote.login(x.logins) == PlainLogin
    ensures CallLogin(x, now, remote) == Attempt(true, x.(session := PlainSession(x.session.patientId), logins := x.logins + 1))
  {
  }

  /** A connections stage whose first reply is undecodable and whose second is a listing. */
  lemma ConnectionsAfterRelogin(x: Ctx, now: Instant, remote: Remote, items: seq<Connection>)
    requires LoggedIn(x.session) && items != []
    requires remote.connections(x.connections) == Garbled && remote.login(x.logins) == PlainLogin
    requires remote.connections(x.connections + 1) == Body(ConnectionsBody(Some(0), None, ConnectionList(items)))
    ensures ConnectionsWithRetry(x, now, remote)
      == Go(items, Ctx(PlainSession(x.session.patientId), x.logins + 1, x.connections + 2, x.graphs),
            [ConnectionsCall, LoginCall, ConnectionsCall])
  {
    PlainLoginStep(CallConnections(x, remote).ctx, now, remote);
  }

  /** A graph stage whose first reply is undecodable and whose second is a graph. */
  lemma GraphAfterRelogin(x: Ctx, now: Instant, remote: Remote, g: GraphDict)
    requires LoggedIn(x.session) && Truthy(x.session.patientId) && g.Graph?
    requires remote.graph(x.graphs, x.session.patientId.value) == Garbled && remote.login(x.logins) == PlainLogin
    requires remote.graph(x.graphs + 1, x.session.patientId.value) == Body(GraphBody(Some(0), None, GraphObject(g)))
    ensures GraphWithRetry(x, now, remote)
      == Go(g, Ctx(PlainSession(x.session.patientId), x.logins + 1, x.connections, x.graphs + 2),
            [GraphCall, LoginCall, GraphCall])
  {
    PlainLoginStep(CallGraph(x, x.session.patientId.value, remote).ctx, now, remote);
  }

  /** The cycle of `ThreeLogins`, call by call. */
  lemma ThreeLoginsCycle(env: Env, remote: Remote, pid: string, g: GraphDict)
    requires !Truthy(env.target) && pid != "" && g.Graph? && !ProcessingRaises(g, env.iso)
    requires remote.login(0) == PlainLogin && remote.login(1) == PlainLogin && remote.login(2) == PlainLogin
    requires remote.connections(0) == Garbled
    requires remote.connections(1) == Body(ConnectionsBody(Some(0), None, ConnectionList([Connection(Some(pid))])))
    requires remote.graph(0, pid) == Garbled
    requires remote.graph(1, pid) == Body(GraphBody(Some(0), None, GraphObject(g)))
    ensures FetchAndProcess(Initial, env, remote)
      == Cycle(ProcessLatest(g, env.now, env.iso), ProcessHistory(g, env.now, env.iso), PlainSession(Some(pid)),
               [LoginCall], [ConnectionsCall, LoginCall, ConnectionsCall], [GraphCall, LoginCall, GraphCall], Done)
  {
    PlainLoginStep(Ctx(Initial, 0, 0, 0), env.now, remote);
    var x := Ctx(PlainSession(None), 1, 0, 0);
    ConnectionsAfterRelogin(x, env.now, remote, [Connection(Some(pid))]);
    var chosen := Ctx(PlainSession(Some(pid)), 2, 2, 0);
    assert ChoosePatient(Ctx(PlainSession(None), 2, 2, 0), [Connection(Some(pid))], env.target) == chosen;
    GraphAfterRelogin(chosen, env.now, remote, g);
  }

  lemma ThreeLoginsCount()
    ensures Count([LoginCall] + [ConnectionsCall, LoginCall, ConnectionsCall] + [GraphCall, LoginCall, GraphCall], LoginCall) == 3
  {
    var cs := [ConnectionsCall, LoginCall, ConnectionsCall];
    var gs := [GraphCall, LoginCall, GraphCall];
    CountConcat([LoginCall] + cs, gs, LoginCall);
    CountConcat([LoginCall], cs, LoginCall);
    assert Count(gs, LoginCall) == 1 by {
      assert gs[..2] == [GraphCall, LoginCall];
      assert [GraphCall, LoginCall][..1] == [GraphCall];
    }
    assert Count(cs, LoginCall) == 1 by {
      assert cs[..2] == [ConnectionsCall, LoginCall];
      assert [ConnectionsCall, LoginCall][..1] == [ConnectionsCall];
    }
    assert Count([LoginCall], LoginCall) == 1 by {
      assert [LoginCall][..0] == [];
    }
  }

  /** One cycle can make three logins: from the initial session, with the first
      connections reply and the first graph reply both undecodable, the cycle logs in,
      retries each data call after a re-login, and succeeds. */
  lemma ThreeLogins(env: Env, remote: Remote, pid: string, g: GraphDict)
    requires !Truthy(env.target) && pid != "" && g.Graph? && !ProcessingRaises(g, env.iso)
    requires remote.login(0) == PlainLogin && remote.login(1) == PlainLogin && remote.login(2) == PlainLogin
    requires remote.connections(0) == Garbled
    requires remote.connections(1) == Body(ConnectionsBody(Some(0), None, ConnectionList([Connection(Some(pid))])))
    requires remote.graph(0, pid) == Garbled
    requires remote.graph(1, pid) == Body(GraphBody(Some(0), None, GraphObject(g)))
    ensures var c := FetchAndProcess(Initial, env, remote);
      && c.exit == Done
      && c.Calls() == [LoginCall, ConnectionsCall, LoginCall, ConnectionsCall, GraphCall, LoginCall, GraphCall]
      && Count(c.Calls(), LoginCall) == 3
  {
    ThreeLoginsCycle(env, remote, pid, g);
    ThreeLoginsCount();
  }

  /** Every login reply keeps the token and the user id in agreement. */
  ghost predicate PairedLogins(remote: Remote) {
    forall k :: PairedLogin(remote.login(k))
  }

  lemma LoginCallPairing(x: Ctx, now: Instant, remote: Remote)
    requires Paired(x.session) && PairedLogins(remote)
    ensures Paired(CallLogin(x, now, remote).ctx.session)
  {
    LoginPairing(x.session, remote.login(x.logins), now);
  }

  lemma ConnectionsCallPairing(x: Ctx, remote: Remote)
    requires Paired(x.session)
    ensures Paired(CallConnections(x, remote).ctx.session)
  {
    var r := GetConnections(x.session, remote.connections(x.connections));
    if LoggedIn(x.session) {
      DataCallKeepsPairing(x.session, r.session);
    }
  }

  lemma GraphCallPairing(x: Ctx, pid: string, remote: Remote)
    requires Paired(x.session)
    ensures Paired(CallGraph(x, pid, remote).ctx.session)
  {
    var r := GetGlucoseData(x.session, remote.graph(x.graphs, pid));
    if LoggedIn(x.session) {
      DataCallKeepsPairing(x.session, r.session);
    }
  }

  lemma ConnectionsStagePairing(x: Ctx, now: Instant, remote: Remote)
    requires Paired(x.session) && PairedLogins(remote)
    ensures Paired(ConnectionsWithRetry(x, now, remote).ctx.session)
  {
    ConnectionsCallPairing(x, remote);
    var first := CallConnections(x, remote);
    LoginCallPairing(first.ctx, now, remote);
    ConnectionsCallPairing(CallLogin(first.ctx, now, remote).ctx, remote);
  }

  lemma GraphStagePairing(x: Ctx, now: Instant, remote: Remote)
    requires Paired(x.session) && PairedLogins(remote) && Truthy(x.session.patientId)
    ensures Paired(GraphWithRetry(x, now, remote).ctx.session)
  {
    var pid := x.session.patientId.value;
    GraphCallPairing(x, pid, remote);
    var first := CallGraph(x, pid, remote);
    LoginCallPairing(first.ctx, now, remote);
    GraphCallPairing(CallLogin(first.ctx, now, remote).ctx, pid, remote);
  }

  /** The pairing invariant survives a whole cycle, provided the login replies respect it;
      the data calls alone can never break it. */
  lemma {:induction false} CycleKeepsPairing(s: Session, env: Env, remote: Remote)
    requires Paired(s) && PairedLogins(remote)
    ensures Paired(FetchAndProcess(s, env, remote).session)
  {
    if !IsTokenValid(s, env.now) {
      LoginCallPairing(Ctx(s, 0, 0, 0), env.now, remote);
    }
    var logged := EnsureLogin(s, env.now, remote);
    if logged.value {
      ConnectionsStagePairing(logged.ctx, env.now, remote);
      var cr := ConnectionsWithRetry(logged.ctx, env.now, remote);
      if cr.Go? {
        var chosen := ChoosePatient(cr.ctx, cr.value, env.target);
        if Truthy(chosen.session.patientId) {
          GraphStagePairing(chosen, env.now, remote);
        }
      }
    }
  }
}

=== FILE: optional.dfy ===
/** Optional values and JSON object keys, the way the Python source reads them. */
module Optional {

  /** A value that may be missing (Python's `None`). Usable with `:-`. */
  datatype Option<+T> = None | Some(value: T) {

    predicate IsFailure() {
      None?
    }

    function PropagateFailure<U>(): Option<U>
      requires None?
    {
      None
    }

    function Extract(): T
      requires Some?
    {
      value
    }
  }

  /** One key of a decoded JSON object: missing, present with `null`, or present with a value.
      The distinction matters where the source tests `key in obj` rather than `obj.get(key)`. */
  datatype Field<+T> = Absent | Null | Present(value: T) {

    /** `obj.get(key)`: a missing key and a `null` both read as `None`. */
    function Get(): Option<T> {
      if Present? then Some(value) else None
    }

    /** `key in obj`: true for a `null` value too. */
    predicate Has() {
      !Absent?
    }
  }

  /** Python truthiness of an optional string: `None` and `""` are both false. */
  predicate Truthy(s: Option<string>) {
    s.Some? && s.value != ""
  }
}

=== FILE: readings.dfy ===
/** Decomposing a graph reply into canonical readings: the latest measurement and the history. */
module Readings {
  import opened Optional
  import opened Time
  import opened Vendor
  import opened Trend
  import opened Timestamps

  /** The vendor payload a reading came from, kept uninterpreted. */
  datatype Raw = FromMeasurement(measurement: Measurement) | FromPoint(point: Point)

  /** A canonical reading as stored: `deviceTimestamp` is when the sensor measured,
      `timestamp` when this process captured it, `sgv` the value in mg/dL. */
  datatype Entry = Entry(deviceTimestamp: Instant, timestamp: Instant, sgv: Option<int>, direction: Direction, raw: Raw)

  /** `_process_latest_reading`: no reading when the measurement is missing or empty, when
      its timestamp does not normalise, or when its value is missing; otherwise one captured
      at `now`, whose device time comes from the payload and never from the clock. */
  function ProcessLatest(g: GraphDict, now: Instant, iso: IsoParser): (r: Option<Entry>)
    ensures r.None? <==> || g.Latest().None?
                         || ParseTimestamp(g.Latest().value.timestamp, iso).None?
                         || g.Latest().value.valueInMgPerDl.None?
    ensures r.Some? ==>
      && r.value.raw == FromMeasurement(g.Latest().value)
      && r.value.deviceTimestamp == ParseTimestamp(g.Latest().value.timestamp, iso).value
      && r.value.timestamp == now
      && r.value.sgv == g.Latest().value.valueInMgPerDl
      && r.value.direction == MapTrendArrow(g.Latest().value.trendArrow)
  {
    match g.Latest()
    case None => None
    case Some(m) =>
      match ParseTimestamp(m.timestamp, iso)
      case None => None
      case Some(device) =>
        if m.valueInMgPerDl.None? then None
        else Some(Entry(device, now, m.valueInMgPerDl, MapTrendArrow(m.trendArrow), FromMeasurement(m)))
  }

  /** A history point is kept when it has both keys (whatever their values) and its
      timestamp normalises. */
  predicate Keep(p: Point, iso: IsoParser) {
    p.value.Has() && p.timestamp.Has() && ParseTimestamp(p.timestamp.Get(), iso).Some?
  }

  /** The reading made from a kept point: no direction, the batch's capture time, and the
      value as found (possibly `null`). */
  function HistoryEntry(p: Point, now: Instant, iso: IsoParser): Entry
    requires Keep(p, iso)
  {
    Entry(ParseTimestamp(p.timestamp.Get(), iso).value, now, p.value.Get(), NONE, FromPoint(p))
  }

  /** The loop of `_process_historical_readings` over a list of points. */
  function HistoryEntries(ps: seq<Point>, now: Instant, iso: IsoParser): (r: seq<Entry>)
    ensures |r| <= |ps|
    ensures forall e :: e in r ==>
      e.direction == NONE && e.timestamp == now && e.raw.FromPoint? && e.raw.point in ps && Keep(e.raw.point, iso)
  {
    if ps == [] then []
    else
      var rest := HistoryEntries(ps[1..], now, iso);
      if Keep(ps[0], iso) then [HistoryEntry(ps[0], now, iso)] + rest else rest
  }

  /** `_process_historical_readings`: nothing when `graphData` is not a list. */
  function ProcessHistory(g: GraphDict, now: Instant, iso: IsoParser): (r: seq<Entry>)
    ensures g.GraphData().NotAList? ==> r == []
    ensures forall e :: e in r ==> e.direction == NONE && e.timestamp == now && e.raw.FromPoint?
  {
    match g.GraphData()
    case NotAList => []
    case Points(ps) => HistoryEntries(ps, now, iso)
  }

  /** Reference definition: the points that survive, in their original order. */
  function KeptPoints(ps: seq<Point>, iso: IsoParser): (kept: seq<Point>)
    ensures forall p :: p in kept <==> p in ps && Keep(p, iso)
  {
    if ps == [] then []
    else if Keep(ps[0], iso) then [ps[0]] + KeptPoints(ps[1..], iso)
    else KeptPoints(ps[1..], iso)
  }

  /** `a` is `b` with some elements dropped and the rest in the same order. */
  predicate IsSubsequence<T(==)>(a: seq<T>, b: seq<T>)
    decreases |b|
  {
    if a == [] then true
    else if b == [] then false
    else (a[0] == b[0] && IsSubsequence(a[1..], b[1..])) || IsSubsequence(a, b[1..])
  }

  lemma {:induction false} KeptIsSubsequence(ps: seq<Point>, iso: IsoParser)
    ensures IsSubsequence(KeptPoints(ps, iso), ps)
    decreases |ps|
  {
    if ps != [] {
      KeptIsSubsequence(ps[1..], iso);
      var kept := KeptPoints(ps, iso);
      if Keep(ps[0], iso) {
        assert kept[1..] == KeptPoints(ps[1..], iso);
      }
    }
  }

  lemma {:induction false} HistoryEntriesFollowKept(ps: seq<Point>, now: Instant, iso: IsoParser)
    ensures var r := HistoryEntries(ps, now, iso); var kept := KeptPoints(ps, iso);
      |r| == |kept| && forall i :: 0 <= i < |r| ==> Keep(kept[i], iso) && r[i] == HistoryEntry(kept[i], now, iso)
    decreases |ps|
  {
    if ps != [] {
      HistoryEntriesFollowKept(ps[1..], now, iso);
      var rest := HistoryEntries(ps[1..], now, iso);
      var keptRest := KeptPoints(ps[1..], iso);
      if Keep(ps[0], iso) {
        var r := [HistoryEntry(ps[0], now, iso)] + rest;
        var kept := [ps[0]] + keptRest;
        assert HistoryEntries(ps, now, iso) == r && KeptPoints(ps, iso) == kept;
        forall i | 0 < i < |r|
          ensures Keep(kept[i], iso) && r[i] == HistoryEntry(kept[i], now, iso)
        {
          assert r[i] == rest[i - 1] && kept[i] == keptRest[i - 1];
        }
      } else {
        assert HistoryEntries(ps, now, iso) == rest && KeptPoints(ps, iso) == keptRest;
      }
    }
  }

  /** The history is exactly the kept points of `graphData`, in order, each turned into a
      reading with direction `NONE` and the one capture time `now`. */
  lemma HistoryIsOrderedFilter(g: GraphDict, now: Instant, iso: IsoParser)
    requires g.GraphData().Points?
    ensures var ps := g.GraphData().points; var r := ProcessHistory(g, now, iso); var kept := KeptPoints(ps, iso);
      && IsSubsequence(kept, ps)
      && |r| == |kept|
      && forall i :: 0 <= i < |r| ==> Keep(kept[i], iso) && r[i] == HistoryEntry(kept[i], now, iso)
  {
    KeptIsSubsequence(g.GraphData().points, iso);
    HistoryEntriesFollowKept(g.GraphData().points, now, iso);
  }

  /** The key test is for presence: a point whose `Value` is `null` is kept, with no value. */
  lemma NullValueIsKept(c: Civil, now: Instant, iso: IsoParser)
    requires ValidCivil(c)
    ensures var p := Point(Null, Present(FormatLlu(c)));
      ProcessHistory(Graph(None, Points([p])), now, iso) == [Entry(CivilToInstant(c), now, None, NONE, FromPoint(p))]
  {
    NormalisesLluFormat(c, iso);
  }

  /** One of the processors raises: the latest measurement's timestamp, or that of a
      history point carrying both keys, overflows in its conversion to UTC. */
  predicate ProcessingRaises(g: GraphDict, iso: IsoParser) {
    || (g.Latest().Some? && ConversionOverflows(g.Latest().value.timestamp, iso))
    || (g.GraphData().Points? &&
        exists p :: p in g.GraphData().points && p.value.Has() && p.timestamp.Has() && ConversionOverflows(p.timestamp.Get(), iso))
  }

  /** The `try` block of `fetch_and_process_data`: the latest reading and the history, or
      nothing when either processor raises. */
  function Process(g: GraphDict, now: Instant, iso: IsoParser): (r: Option<(Option<Entry>, seq<Entry>)>)
    ensures r.None? <==> ProcessingRaises(g, iso)
    ensures r.Some? ==> r.value.0 == ProcessLatest(g, now, iso) && r.value.1 == ProcessHistory(g, now, iso)
  {
    if ProcessingRaises(g, iso) then None
    else Some((ProcessLatest(g, now, iso), ProcessHistory(g, now, iso)))
  }

  /** A latest measurement whose ISO timestamp, once converted to UTC, lies past
      `datetime.max` makes the processing raise, whatever the history holds. */
  lemma OverflowingLatestRaises(t: string, value: Option<int>, trend: Option<string>, history: History,
                                now: Instant, iso: IsoParser, wall: Instant, offset: int)
    requires t != "" && ParseLlu(t).None?
    requires iso(IsoInput(t)) == Some(Aware(wall, offset)) && wall - offset > MaxInstant
    ensures Process(Graph(Some(Measurement(Some(t), value, trend)), history), now, iso).None?
  {
  }

  /** A measurement stamped in the vendor format yields one reading at the instant that
      time denotes, with the mapped direction. */
  lemma LatestFromVendorTime(c: Civil, value: int, trend: Option<string>, history: History, now: Instant, iso: IsoParser)
    requires ValidCivil(c)
    ensures var m := Measurement(Some(FormatLlu(c)), Some(value), trend);
      ProcessLatest(Graph(Some(m), history), now, iso)
        == Some(Entry(CivilToInstant(c), now, Some(value), MapTrendArrow(trend), FromMeasurement(m)))
  {
    NormalisesLluFormat(c, iso);
  }

  /** A worked reading: the vendor time `6/1/2024 10:00:00 AM` (see `FormatExample`),
      120 mg/dL and `Stable` become a `Flat` reading whose device time is
      2024-06-01T10:00:00Z, i.e. POSIX second 1717236000. */
  lemma LatestExample(now: Instant, iso: IsoParser)
    ensures var m := Measurement(Some(FormatLlu(Civil(2024, 6, 1, 10, 0, 0))), Some(120), Some("Stable"));
      ProcessLatest(Graph(Some(m), Points([])), now, iso)
        == Some(Entry(FromPosixSeconds(1_717_236_000), now, Some(120), Flat, FromMeasurement(m)))
  {
    var c := Civil(2024, 6, 1, 10, 0, 0);
    assert ValidCivil(c);
    LatestFromVendorTime(c, 120, Some("Stable"), Points([]), now, iso);
    InstantExample();
    TrendExamples();
  }
}

=== FILE: session.dfy ===
/** The session manager: the four session fields and the primitives that read or write them. */
module SessionManager {
  import opened Optional
  import opened Time
  import opened Vendor

  /** The state `LibreLinkUpService` keeps between calls. */
  datatype Session = Session(
    authToken: Option<string>,
    userId: Option<string>,
    tokenExpiresAt: Option<Instant>,
    patientId: Option<string>)

  /** The state at process start. */
  const Initial: Session := Session(None, None, None, None)

  /** Margin subtracted from the expiry before comparing with the clock. */
  const SafetyMargin: int := 60 * MicrosPerSecond

  /** Both credentials are truthy: the guard of `get_authenticated_headers`. */
  predicate LoggedIn(s: Session) {
    Truthy(s.authToken) && Truthy(s.userId)
  }

  /** Token and user id are both truthy or both falsy: `get_authenticated_headers` needs
      both, while `is_token_valid` looks at the token alone. */
  predicate Paired(s: Session) {
    Truthy(s.authToken) <==> Truthy(s.userId)
  }

  /** `get_authenticated_headers`: no headers unless logged in (it never logs in itself);
      otherwise the default headers with a bearer token and the hashed account id added.
      The default header table and SHA-256 hex digest are parameters. */
  function AuthenticatedHeaders(s: Session, defaults: map<string, string>, hash: string -> string)
    : (h: Option<map<string, string>>)
    ensures h.None? <==> !LoggedIn(s)
    ensures h.Some? ==> h.value.Keys == defaults.Keys + {"Authorization", "account-id"}
    ensures h.Some? ==> h.value["Authorization"] == "Bearer " + s.authToken.value
    ensures h.Some? ==> h.value["account-id"] == hash(s.userId.value)
    ensures h.Some? ==> forall k :: k in defaults && k != "Authorization" && k != "account-id" ==> h.value[k] == defaults[k]
  {
    if !LoggedIn(s) then None
    else Some(defaults["Authorization" := "Bearer " + s.authToken.value]["account-id" := hash(s.userId.value)])
  }

  /** `is_token_valid`: a truthy token, a known expiry, and `now` strictly before the expiry
      less the margin. It does not look at `userId`. */
  function IsTokenValid(s: Session, now: Instant): (valid: bool)
    ensures !Truthy(s.authToken) || s.tokenExpiresAt.None? ==> !valid
    ensures s.tokenExpiresAt.Some? ==> (valid <==> Truthy(s.authToken) && now + SafetyMargin < s.tokenExpiresAt.value)
  {
    Truthy(s.authToken) && s.tokenExpiresAt.Some? && now < s.tokenExpiresAt.value - SafetyMargin
  }

  /** The 60-second margin, stated on both sides of the boundary; a session without an
      expiry is never valid, and validity only ends as time advances. */
  lemma ValidityWindow(s: Session, now: Instant, later: Instant)
    requires Truthy(s.authToken)
    ensures !IsTokenValid(s.(tokenExpiresAt := Some(now + 59 * MicrosPerSecond)), now)
    ensures !IsTokenValid(s.(tokenExpiresAt := Some(now + 60 * MicrosPerSecond)), now)
    ensures IsTokenValid(s.(tokenExpiresAt := Some(now + 61 * MicrosPerSecond)), now)
    ensures !IsTokenValid(s.(tokenExpiresAt := None), now)
    ensures now <= later && IsTokenValid(s, later) ==> IsTokenValid(s, now)
  {
  }

  /** Under the pairing invariant a valid token implies usable headers. */
  lemma ValidMeansLoggedIn(s: Session, now: Instant)
    requires Paired(s)
    ensures IsTokenValid(s, now) ==> LoggedIn(s)
  {
  }

  /** The expiry a successful login records, or `Raises` when computing it throws. */
  datatype Expiry = Expires(at: Option<Instant>) | Raises

  /** The expiry rule of `login`: a positive absolute `expires` wins; otherwise a positive
      `duration` counts from `now`; otherwise the expiry is unknown. A `null` in a compared
      field, or an instant past `datetime.max`, raises. */
  function LoginExpiry(t: AuthTicket, now: Instant): (r: Expiry)
    ensures t.expires.Present? && t.expires.value > 0 ==>
      (r.Raises? <==> t.expires.value > MaxPosixSeconds)
    ensures r.Expires? && r.at.Some? ==> r.at.value <= MaxInstant
    ensures r.Expires? && r.at.Some? && !(t.expires.Present? && t.expires.value > 0) ==>
      t.duration.Present? && r.at.value == now + FromPosixSeconds(t.duration.value) && r.at.value > now
    ensures t.expires.Null? ==> r.Raises?
  {
    if t.expires.Null? then Raises
    else if t.expires.Present? && t.expires.value > 0 then
      (if t.expires.value <= MaxPosixSeconds then Expires(Some(FromPosixSeconds(t.expires.value))) else Raises)
    else if t.duration.Null? then Raises
    else if t.duration.Present? && t.duration.value > 0 then
      (if now + FromPosixSeconds(t.duration.value) <= MaxInstant then Expires(Some(now + FromPosixSeconds(t.duration.value))) else Raises)
    else Expires(None)
  }

  /** The ticket renewal of a rejected data call: a ticket with a truthy token replaces the
      token, and the expiry only when `expires` is a positive in-range POSIX time. */
  function ApplyRenewal(s: Session, ticket: Option<Ticket>): (s': Session)
    ensures s'.userId == s.userId && s'.patientId == s.patientId
    ensures s' != s ==> ticket.Some? && Truthy(ticket.value.token) && s'.authToken == ticket.value.token
    ensures ticket.Some? && Truthy(ticket.value.token) ==> s'.authToken == ticket.value.token
    ensures ticket.Some? && Truthy(ticket.value.token) && ticket.value.expires.Some? && 0 < ticket.value.expires.value <= MaxPosixSeconds ==>
      s'.tokenExpiresAt == Some(FromPosixSeconds(ticket.value.expires.value))
    ensures s'.tokenExpiresAt != s.tokenExpiresAt ==>
      ticket.Some? && ticket.value.expires.Some? && 0 < ticket.value.expires.value <= MaxPosixSeconds
      && s'.tokenExpiresAt == Some(FromPosixSeconds(ticket.value.expires.value))
  {
    if ticket.Some? && Truthy(ticket.value.token) then
      var renewed := s.(authToken := ticket.value.token);
      var e := ticket.value.expires;
      if e.Some? && 0 < e.value <= MaxPosixSeconds then renewed.(tokenExpiresAt := Some(FromPosixSeconds(e.value)))
      else renewed
    else s
  }

  /** The reaction to an authentication error: credentials and expiry cleared together; the
      selected patient is kept. */
  function Invalidate(s: Session): (s': Session)
    ensures s'.authToken.None? && s'.userId.None? && s'.tokenExpiresAt.None?
    ensures !LoggedIn(s') && Paired(s') && forall now :: !IsTokenValid(s', now)
    ensures s'.patientId == s.patientId
  {
    s.(authToken := None, userId := None, tokenExpiresAt := None)
  }

  /** The session after a data call's request raised: HTTP 401 or 403 invalidates, anything
      else (other codes, transport errors) leaves it alone. */
  function AfterRequestFailure(s: Session, httpStatus: Option<int>): (s': Session)
    ensures httpStatus == Some(401) || httpStatus == Some(403) ==> s' == Invalidate(s)
    ensures httpStatus != Some(401) && httpStatus != Some(403) ==> s' == s
  {
    if httpStatus == Some(401) || httpStatus == Some(403) then Invalidate(s) else s
  }

  /** The only ways a data call may change the session: not at all, invalidation, or a
      renewal that keeps `userId` and `patientId`. */
  predicate DataCallEffect(s: Session, s': Session) {
    || s' == s
    || s' == Invalidate(s)
    || (s'.userId == s.userId && s'.patientId == s.patientId && Truthy(s'.authToken))
  }

  /** A data call that is made only when logged in keeps the pairing invariant. */
  lemma DataCallKeepsPairing(s: Session, s': Session)
    requires LoggedIn(s) && DataCallEffect(s, s')
    ensures Paired(s')
  {
  }
}

=== FILE: store.dfy ===
/** The `entries` collection of `MongoDBService`: a store of readings with a unique
    `device_timestamp` index, insert-if-absent writes, and the two time-ordered queries. */
module EntryStore {
  import opened Optional
  import opened Time
  import opened Readings

  /** The collection's documents in insertion order. */
  datatype Store = Store(entries: seq<Entry>)

  const Empty: Store := Store([])

  /** The unique index on `device_timestamp`: no two documents share a key. */
  predicate Unique(es: seq<Entry>) {
    forall i, j :: 0 <= i < j < |es| ==> es[i].deviceTimestamp != es[j].deviceTimestamp
  }

  function KeysOf(es: seq<Entry>): set<Instant> {
    set e | e in es :: e.deviceTimestamp
  }

  /** `find_one({"device_timestamp": k})`: the first document with that key. */
  function Find(es: seq<Entry>, k: Instant): (r: Option<Entry>)
    ensures r.None? <==> k !in KeysOf(es)
    ensures r.Some? ==> r.value in es && r.value.deviceTimestamp == k
  {
    if es == [] then None
    else if es[0].deviceTimestamp == k then Some(es[0])
    else
      assert KeysOf(es) == {es[0].deviceTimestamp} + KeysOf(es[1..]) by {
        assert es == [es[0]] + es[1..];
      }
      Find(es[1..], k)
  }

  /** A key found in the first part is found there; otherwise the search goes on into the second. */
  lemma {:induction false} FindConcat(a: seq<Entry>, b: seq<Entry>, k: Instant)
    ensures Find(a + b, k) == if k in KeysOf(a) then Find(a, k) else Find(b, k)
    decreases |a|
  {
    if a != [] {
      assert (a + b)[1..] == a[1..] + b;
      assert a == [a[0]] + a[1..];
      assert KeysOf(a) == {a[0].deviceTimestamp} + KeysOf(a[1..]);
      FindConcat(a[1..], b, k);
    } else {
      assert a + b == b;
    }
  }

  /** The collection seen as a map from `device_timestamp` to document. */
  function AsMap(es: seq<Entry>): map<Instant, Entry> {
    if es == [] then map[]
    else AsMap(es[..|es| - 1])[es[|es| - 1].deviceTimestamp := es[|es| - 1]]
  }

  /** Under the unique index the last document's key occurs nowhere before it. */
  lemma LastKeyFresh(es: seq<Entry>)
    requires Unique(es) && es != []
    ensures es[|es| - 1].deviceTimestamp !in KeysOf(es[..|es| - 1])
  {
    var init := es[..|es| - 1];
    forall e | e in init
      ensures e.deviceTimestamp != es[|es| - 1].deviceTimestamp
    {
      var i :| 0 <= i < |init| && init[i] == e;
      assert es[i] == e;
    }
  }

  lemma SplitLast(es: seq<Entry>)
    requires es != []
    ensures es == es[..|es| - 1] + [es[|es| - 1]]
    ensures KeysOf(es) == KeysOf(es[..|es| - 1]) + {es[|es| - 1].deviceTimestamp}
    ensures Unique(es) ==> Unique(es[..|es| - 1])
  {
    assert es == es[..|es| - 1] + [es[|es| - 1]];
  }

  /** Under the unique index the map view holds every key, each with the one document
      `find_one` returns for it. */
  lemma {:induction false} MapView(es: seq<Entry>, k: Instant)
    requires Unique(es)
    ensures k in AsMap(es) <==> k in KeysOf(es)
    ensures k in AsMap(es) ==> Find(es, k) == Some(AsMap(es)[k])
    decreases |es|
  {
    if es != [] {
      var init, last := es[..|es| - 1], es[|es| - 1];
      SplitLast(es);
      MapView(init, k);
      FindConcat(init, [last], k);
      LastKeyFresh(es);
    }
  }

  /** The outcome of `insert_entry`: whether a document was written, and the store after it. */
  datatype Inserted = Inserted(ok: bool, store: Store)

  /** `insert_entry`: write the entry unless its `device_timestamp` is already present. */
  function InsertEntry(st: Store, e: Entry): (r: Inserted)
    ensures r.ok <==> e.deviceTimestamp !in KeysOf(st.entries)
    ensures !r.ok ==> r.store == st
    ensures r.ok ==> r.store.entries == st.entries + [e]
  {
    if Find(st.entries, e.deviceTimestamp).Some? then Inserted(false, st)
    else Inserted(true, Store(st.entries + [e]))
  }

  /** Appending a document with a fresh key keeps the index unique. */
  lemma AppendFresh(es: seq<Entry>, e: Entry)
    requires Unique(es) && e.deviceTimestamp !in KeysOf(es)
    ensures Unique(es + [e])
  {
    var r := es + [e];
    forall i, j | 0 <= i < j < |r|
      ensures r[i].deviceTimestamp != r[j].deviceTimestamp
    {
      if j == |es| {
        assert r[i] == es[i] && es[i] in es;
      } else {
        assert r[i] == es[i] && r[j] == es[j];
      }
    }
  }

  /** `insert_entry` is put-if-absent on the map view, and keeps the index unique. */
  lemma InsertIsPutIfAbsent(st: Store, e: Entry)
    requires Unique(st.entries)
    ensures var r := InsertEntry(st, e);
      && Unique(r.store.entries)
      && AsMap(r.store.entries)
         == if e.deviceTimestamp in AsMap(st.entries) then AsMap(st.entries)
            else AsMap(st.entries)[e.deviceTimestamp := e]
  {
    var r := InsertEntry(st, e);
    MapView(st.entries, e.deviceTimestamp);
    if r.ok {
      var es := st.entries + [e];
      assert r.store.entries == es;
      assert es[..|es| - 1] == st.entries && es[|es| - 1] == e;
      assert AsMap(es) == AsMap(st.entries)[e.deviceTimestamp := e];
      AppendFresh(st.entries, e);
    } else {
      assert r.store == st;
    }
  }

  /** The outcome of `insert_entries`: how many documents were written, and the store after. */
  datatype InsertedMany = InsertedMany(count: nat, store: Store)

  /** `insert_entries`: `insert_entry` on each entry in turn, counting the writes. The
      existing documents are never replaced, the count is the number of keys new to the
      store, and for each new key the first entry of the batch with that key is stored. */
  function InsertEntries(st: Store, es: seq<Entry>): (r: InsertedMany)
    ensures es == [] ==> r == InsertedMany(0, st)
    ensures r.count <= |es|
    ensures KeysOf(r.store.entries) == KeysOf(st.entries) + KeysOf(es)
    ensures r.count == |KeysOf(es) - KeysOf(st.entries)|
    ensures |st.entries| <= |r.store.entries| && r.store.entries[..|st.entries|] == st.entries
    ensures forall k :: Find(r.store.entries, k) == if k in KeysOf(st.entries) then Find(st.entries, k) else Find(es, k)
    ensures Unique(st.entries) ==> Unique(r.store.entries)
    decreases |es|
  {
    if es == [] then InsertedMany(0, st)
    else
      var one := InsertEntry(st, es[0]);
      var rest := InsertEntries(one.store, es[1..]);
      InsertKeys(st, es, one.store, rest.store);
      InsertPrefix(st, es[0], one.store, rest.store);
      InsertFinds(st, es, one.store, rest.store);
      InsertedMany(rest.count + (if one.ok then 1 else 0), rest.store)
  }

  /** The step of `InsertEntries` for its first entry: keys and count compose. */
  lemma InsertKeys(st: Store, es: seq<Entry>, mid: Store, end: Store)
    requires es != [] && mid == InsertEntry(st, es[0]).store
    requires KeysOf(end.entries) == KeysOf(mid.entries) + KeysOf(es[1..])
    ensures KeysOf(end.entries) == KeysOf(st.entries) + KeysOf(es)
    ensures |KeysOf(es) - KeysOf(st.entries)|
      == |KeysOf(es[1..]) - KeysOf(mid.entries)| + (if InsertEntry(st, es[0]).ok then 1 else 0)
  {
    InsertOneKeys(st, es[0]);
    HeadKeys(es);
    NewKeysStep(KeysOf(st.entries), KeysOf(mid.entries), KeysOf(es[1..]), es[0].deviceTimestamp);
  }

  /** The step of `InsertEntries` for its first entry: the stored documents stay a prefix. */
  lemma InsertPrefix(st: Store, e: Entry, mid: Store, end: Store)
    requires mid == InsertEntry(st, e).store
    requires |mid.entries| <= |end.entries| && end.entries[..|mid.entries|] == mid.entries
    ensures |st.entries| <= |end.entries| && end.entries[..|st.entries|] == st.entries
  {
    assert mid.entries[..|st.entries|] == st.entries;
    assert end.entries[..|st.entries|] == end.entries[..|mid.entries|][..|st.entries|];
  }

  /** The step of `InsertEntries` for its first entry: lookups and uniqueness compose. */
  lemma InsertFinds(st: Store, es: seq<Entry>, mid: Store, end: Store)
    requires es != [] && mid == InsertEntry(st, es[0]).store
    requires forall k :: Find(end.entries, k) == if k in KeysOf(mid.entries) then Find(mid.entries, k) else Find(es[1..], k)
    requires Unique(mid.entries) ==> Unique(end.entries)
    ensures forall k :: Find(end.entries, k) == if k in KeysOf(st.entries) then Find(st.entries, k) else Find(es, k)
    ensures Unique(st.entries) ==> Unique(end.entries)
  {
    var e := es[0];
    InsertOneKeys(st, e);
    forall k
      ensures Find(end.entries, k) == if k in KeysOf(st.entries) then Find(st.entries, k) else Find(es, k)
    {
      FindHead(es, k);
      if e.deviceTimestamp !in KeysOf(st.entries) {
        FindConcat(st.entries, [e], k);
      }
    }
    if Unique(st.entries) {
      InsertIsPutIfAbsent(st, e);
    }
  }

  lemma InsertOneKeys(st: Store, e: Entry)
    ensures KeysOf(InsertEntry(st, e).store.entries) == KeysOf(st.entries) + {e.deviceTimestamp}
  {
    if e.deviceTimestamp !in KeysOf(st.entries) {
      assert e in st.entries + [e];
    }
  }

  lemma HeadKeys(es: seq<Entry>)
    requires es != []
    ensures KeysOf(es) == {es[0].deviceTimestamp} + KeysOf(es[1..])
  {
    assert es == [es[0]] + es[1..];
  }

  lemma FindHead(es: seq<Entry>, k: Instant)
    requires es != []
    ensures Find(es, k) == if es[0].deviceTimestamp == k then Some(es[0]) else Find(es[1..], k)
  {
  }

  /** Counting the keys a batch adds, one key at a time. */
  lemma NewKeysStep(known: set<Instant>, mid: set<Instant>, rest: set<Instant>, key: Instant)
    requires mid == known + {key}
    ensures |({key} + rest) - known| == |rest - mid| + (if key in known then 0 else 1)
  {
    if key in known {
      assert ({key} + rest) - known == rest - mid;
    } else {
      assert ({key} + rest) - known == {key} + (rest - mid);
    }
  }

  /** The collection after a history of `insert_entries` batches, starting empty. */
  function Replay(batches: seq<seq<Entry>>): Store {
    if batches == [] then Empty
    else InsertEntries(Replay(batches[..|batches| - 1]), batches[|batches| - 1]).store
  }

  /** Whatever was inserted, the store holds at most one document per `device_timestamp`. */
  lemma {:induction false} ReplayKeepsKeysUnique(batches: seq<seq<Entry>>)
    ensures Unique(Replay(batches).entries)
    decreases |batches|
  {
    if batches != [] {
      ReplayKeepsKeysUnique(batches[..|batches| - 1]);
    }
  }

  /** Ascending by capture time (`timestamp`, not `device_timestamp`). */
  predicate SortedByTime(es: seq<Entry>) {
    forall i, j :: 0 <= i < j < |es| ==> es[i].timestamp <= es[j].timestamp
  }

  /** Places `e` after every element not later than it. */
  function InsertByTime(e: Entry, sorted: seq<Entry>): (r: seq<Entry>)
    requires SortedByTime(sorted)
    ensures SortedByTime(r)
    ensures multiset(r) == multiset(sorted) + multiset{e}
    ensures forall x | x in r :: x in sorted || x == e
  {
    if sorted == [] then [e]
    else if e.timestamp < sorted[0].timestamp then [e] + sorted
    else
      var tail := InsertByTime(e, sorted[1..]);
      HeadBelowInsert(e, sorted, tail);
      assert multiset(sorted) == multiset{sorted[0]} + multiset(sorted[1..]) by {
        assert sorted == [sorted[0]] + sorted[1..];
      }
      [sorted[0]] + tail
  }

  /** The head of a sorted sequence is not later than anything in the rest, nor than an
      element inserted behind it. */
  lemma HeadBelowInsert(e: Entry, sorted: seq<Entry>, tail: seq<Entry>)
    requires SortedByTime(sorted) && sorted != [] && sorted[0].timestamp <= e.timestamp
    requires forall x | x in tail :: x in sorted[1..] || x == e
    requires SortedByTime(tail)
    ensures SortedByTime([sorted[0]] + tail)
  {
    var r := [sorted[0]] + tail;
    forall j | 0 < j < |r|
      ensures sorted[0].timestamp <= r[j].timestamp
    {
      assert r[j] == tail[j - 1];
      assert r[j] in tail;
      if r[j] in sorted[1..] {
        var i :| 0 <= i < |sorted[1..]| && sorted[1..][i] == r[j];
        assert sorted[i + 1] == r[j];
      }
    }
    forall i, j | 0 < i < j < |r|
      ensures r[i].timestamp <= r[j].timestamp
    {
      assert r[i] == tail[i - 1] && r[j] == tail[j - 1];
    }
  }

  /** Insertion sort by capture time: the sort `find(..., sort=[("timestamp", 1)])` applies. */
  function SortByTime(es: seq<Entry>): (r: seq<Entry>)
    ensures SortedByTime(r)
    ensures multiset(r) == multiset(es)
  {
    if es == [] then []
    else
      assert es == es[..|es| - 1] + [es[|es| - 1]];
      InsertByTime(es[|es| - 1], SortByTime(es[..|es| - 1]))
  }

  /** The documents matching `{"timestamp": {"$gte": since}}`, in store order. */
  function Matching(es: seq<Entry>, since: Instant): (r: seq<Entry>)
    ensures forall e :: multiset(r)[e] == if e.timestamp >= since then multiset(es)[e] else 0
  {
    if es == [] then []
    else
      assert es == es[..|es| - 1] + [es[|es| - 1]];
      var init := Matching(es[..|es| - 1], since);
      if es[|es| - 1].timestamp >= since then init + [es[|es| - 1]] else init
  }

  /** `get_entries_since(hours)` against the clock reading `now` (`datetime.utcnow()`):
      when `now - hours` is a representable `datetime`, exactly the documents captured at or
      after it, ascending by capture time; otherwise the `OverflowError` is caught and the
      result is empty. */
  function GetEntriesSince(st: Store, now: Instant, hours: int): (r: seq<Entry>)
    ensures SortedByTime(r)
    ensures var since := now - hours * MicrosPerHour;
      if MinInstant <= since <= MaxInstant then
        forall e :: multiset(r)[e] == if e.timestamp >= since then multiset(st.entries)[e] else 0
      else r == []
  {
    var since := now - hours * MicrosPerHour;
    if since < MinInstant || MaxInstant < since then []
    else SortByTime(Matching(st.entries, since))
  }

  /** A document with the greatest capture time, the last inserted among equals. */
  function Latest(es: seq<Entry>): (r: Option<Entry>)
    ensures r.None? <==> es == []
    ensures r.Some? ==> r.value in es && forall e | e in es :: e.timestamp <= r.value.timestamp
  {
    if es == [] then None
    else
      var last := es[|es| - 1];
      assert es == es[..|es| - 1] + [last];
      match Latest(es[..|es| - 1])
      case None => Some(last)
      case Some(m) => if m.timestamp <= last.timestamp then Some(last) else Some(m)
  }

  /** `get_latest_entry`: `find_one(sort=[("timestamp", -1)])`. */
  function GetLatestEntry(st: Store): (r: Option<Entry>)
    ensures r.None? <==> st.entries == []
    ensures r.Some? ==> r.value in st.entries && forall e | e in st.entries :: e.timestamp <= r.value.timestamp
  {
    Latest(st.entries)
  }

  /** The two queries agree: when the window holds a document, its last one was captured at
      the same time as the latest document. */
  lemma LatestEndsWindow(st: Store, now: Instant, hours: int)
    requires GetEntriesSince(st, now, hours) != []
    ensures var w := GetEntriesSince(st, now, hours);
      GetLatestEntry(st).Some? && w[|w| - 1].timestamp == GetLatestEntry(st).value.timestamp
  {
    var w := GetEntriesSince(st, now, hours);
    var since := now - hours * MicrosPerHour;
    assert MinInstant <= since <= MaxInstant;
    var last := w[|w| - 1];
    assert last in multiset(w);
    assert last in st.entries && last.timestamp >= since;
    var m := GetLatestEntry(st).value;
    assert m.timestamp >= last.timestamp;
    assert m in multiset(st.entries);
    assert m in multiset(w);
    var i :| 0 <= i < |w| && w[i] == m;
    assert i == |w| - 1 || w[i].timestamp <= last.timestamp;
  }
}

=== FILE: time.dfy ===
/** UTC instants and proleptic-Gregorian civil times, at Python `datetime` resolution. */
module Time {

  /** Microseconds since 1970-01-01T00:00:00Z. */
  type Instant = int

  const MicrosPerSecond: int := 1_000_000
  const MicrosPerHour: int := 3600 * MicrosPerSecond

  /** Latest POSIX second `datetime.fromtimestamp` accepts: 9999-12-31T23:59:59Z. */
  const MaxPosixSeconds: int := 253_402_300_799

  /** `datetime.max` as an instant; arithmetic beyond it raises `OverflowError`. */
  const MaxInstant: Instant := MaxPosixSeconds * MicrosPerSecond + 999_999

  /** `datetime.min` (0001-01-01T00:00:00) as an instant. */
  const MinInstant: Instant := -62_135_596_800 * MicrosPerSecond

  function FromPosixSeconds(t: int): Instant {
    t * MicrosPerSecond
  }

  predicate IsLeapYear(y: int) {
    y % 4 == 0 && (y % 100 != 0 || y % 400 == 0)
  }

  function DaysInMonth(y: int, m: int): int
    requires 1 <= m <= 12
  {
    if m == 2 then (if IsLeapYear(y) then 29 else 28)
    else if m == 4 || m == 6 || m == 9 || m == 11 then 30
    else 31
  }

  /** A wall-clock reading with a 24-hour hour field. */
  datatype Civil = Civil(year: int, month: int, day: int, hour: int, minute: int, second: int)

  /** What the `datetime` constructor accepts (whole seconds, leap seconds refused). */
  predicate ValidCivil(c: Civil) {
    && 1 <= c.year <= 9999
    && 1 <= c.month <= 12
    && 1 <= c.day <= DaysInMonth(c.year, c.month)
    && 0 <= c.hour < 24
    && 0 <= c.minute < 60
    && 0 <= c.second < 60
  }

  /** Days from 1970-01-01 to the given date (proleptic Gregorian calendar). */
  function DaysFromCivil(y: int, m: int, d: int): int
    requires 1 <= y && 1 <= m <= 12
  {
    var y' := if m <= 2 then y - 1 else y;
    var era := y' / 400;
    var yoe := y' - era * 400;
    var mp := if m > 2 then m - 3 else m + 9;
    var doy := (153 * mp + 2) / 5 + d - 1;
    var doe := yoe * 365 + yoe / 4 - yoe / 100 + doy;
    era * 146097 + doe - 719468
  }

  /** The instant a civil time denotes when read as UTC. */
  function CivilToInstant(c: Civil): Instant
    requires ValidCivil(c)
  {
    var days := DaysFromCivil(c.year, c.month, c.day);
    ((days * 24 + c.hour) * 60 + c.minute) * 60 * MicrosPerSecond + c.second * MicrosPerSecond
  }

  /** The two ends of the `datetime` range are the first and the last microsecond of the
      years 1 and 9999. */
  lemma InstantRange()
    ensures CivilToInstant(Civil(1, 1, 1, 0, 0, 0)) == MinInstant
    ensures CivilToInstant(Civil(9999, 12, 31, 23, 59, 59)) + 999_999 == MaxInstant
  {
  }

  /** 2024-06-01T10:00:00Z is POSIX second 1717236000 (day 19875 of the epoch). */
  lemma InstantExample()
    ensures CivilToInstant(Civil(2024, 6, 1, 10, 0, 0)) == FromPosixSeconds(1_717_236_000)
  {
    assert DaysFromCivil(2024, 6, 1) == 19875 by {
      assert 2024 / 400 == 5;
      assert (153 * 3 + 2) / 5 == 92;
      assert 24 / 4 == 6 && 24 / 100 == 0;
    }
  }
}

=== FILE: timestamps.dfy ===
/** The timestamp normaliser: the vendor's 12-hour format first, an ISO-8601 parser second. */
module Timestamps {
  import opened Optional
  import opened Time
  import opened Decimal

  /** A scanned token and the input left after it. */
  datatype Scan<+T> = Scan(value: T, rest: string)

  /** Python's `str.isspace`, which is what `\s` matches in a `str` pattern. */
  predicate IsSpace(c: char) {
    var n := c as int;
    || 0x09 <= n <= 0x0D || 0x1C <= n <= 0x20 || n == 0x85 || n == 0xA0 || n == 0x1680
    || 0x2000 <= n <= 0x200A || n == 0x2028 || n == 0x2029 || n == 0x202F || n == 0x205F
    || n == 0x3000
  }

  /** A numeral of `minLen`..`maxLen` digits, followed by a non-digit, whose value is in `lo`..`hi`.
      The digit alternatives of the `strptime` patterns all reduce to this once the separator
      after the field is required. */
  function Number(s: string, minLen: nat, maxLen: nat, lo: int, hi: int): (r: Option<Scan<int>>)
    ensures r.Some? ==> lo <= r.value.value <= hi && |r.value.rest| < |s|
  {
    var k := LeadingDigits(s);
    if minLen <= k <= maxLen && 1 <= k && lo <= ValueOf(s[..k]) <= hi then Some(Scan(ValueOf(s[..k]), s[k..]))
    else None
  }

  /** `%d`: also accepts a space-padded single digit (`" 5"`). */
  function DayNumber(s: string): Option<Scan<int>> {
    if |s| >= 2 && s[0] == ' ' && '1' <= s[1] <= '9' then Some(Scan(DigitValue(s[1]), s[2..]))
    else Number(s, 1, 2, 1, 31)
  }

  function Literal(s: string, c: char): Option<string> {
    if |s| > 0 && s[0] == c then Some(s[1..]) else None
  }

  /** Length of the leading whitespace run. */
  function SpaceRun(s: string): (k: nat)
    ensures k <= |s|
    ensures k < |s| ==> !IsSpace(s[k])
  {
    if s == [] || !IsSpace(s[0]) then 0 else 1 + SpaceRun(s[1..])
  }

  /** `\s+`, greedy. */
  function Blanks(s: string): Option<string> {
    var k := SpaceRun(s);
    if k == 0 then None else Some(s[k..])
  }

  /** `%p` in the C locale, matched case-insensitively; the value is true for PM. */
  function Meridiem(s: string): Option<Scan<bool>> {
    if |s| >= 2 && (s[0] == 'a' || s[0] == 'A' || s[0] == 'p' || s[0] == 'P') && (s[1] == 'm' || s[1] == 'M')
    then Some(Scan(s[0] == 'p' || s[0] == 'P', s[2..]))
    else None
  }

  /** `%I` with `%p` to a 24-hour hour: 12 AM is 0, 12 PM is 12. */
  function Hour24(h12: int, pm: bool): int {
    if !pm then (if h12 == 12 then 0 else h12) else (if h12 == 12 then 12 else h12 + 12)
  }

  /** `%m/%d/%Y`: month, day and year as written, before any calendar check. */
  function ParseDate(s: string): (r: Option<Scan<(int, int, int)>>)
  {
    var month :- Number(s, 1, 2, 1, 12);
    var r1 :- Literal(month.rest, '/');
    var day :- DayNumber(r1);
    var r2 :- Literal(day.rest, '/');
    var year :- Number(r2, 4, 4, 0, 9999);
    Some(Scan((year.value, month.value, day.value), year.rest))
  }

  /** `%I:%M:%S`: the 12-hour hour, minute and second as written (`%S` admits 60 and 61). */
  function ParseClock(s: string): (r: Option<Scan<(int, int, int)>>)
  {
    var hour :- Number(s, 1, 2, 1, 12);
    var r1 :- Literal(hour.rest, ':');
    var minute :- Number(r1, 1, 2, 0, 59);
    var r2 :- Literal(minute.rest, ':');
    var second :- Number(r2, 1, 2, 0, 61);
    Some(Scan((hour.value, minute.value, second.value), second.rest))
  }

  /** `datetime.strptime(s, "%m/%d/%Y %I:%M:%S %p")`: the whole string must match, and the
      fields must form a valid date and time. */
  function ParseLlu(s: string): (r: Option<Civil>)
    ensures r.Some? ==> ValidCivil(r.value)
  {
    var date :- ParseDate(s);
    var r1 :- Blanks(date.rest);
    var clock :- ParseClock(r1);
    var r2 :- Blanks(clock.rest);
    var pm :- Meridiem(r2);
    var (y, mo, d) := date.value;
    var (h, mi, se) := clock.value;
    var c := Civil(y, mo, d, Hour24(h, pm.value), mi, se);
    if pm.rest == [] && ValidCivil(c) then Some(c) else None
  }

  function Hour12(h: int): int {
    if h % 12 == 0 then 12 else h % 12
  }

  /** The vendor's rendering of a time, e.g. `4/29/2025 6:12:40 PM`. */
  function FormatLlu(c: Civil): string
    requires ValidCivil(c)
  {
    Digits(c.month) + ("/" + (Digits(c.day) + ("/" + (Padded(c.year, 4) + (" " +
    (Digits(Hour12(c.hour)) + (":" + (Padded(c.minute, 2) + (":" + (Padded(c.second, 2) + (" " +
    (if c.hour < 12 then "AM" else "PM"))))))))))))
  }

  /** What an ISO-8601 parser (`datetime.fromisoformat`) yields: a naive wall time, or a wall
      time with its UTC offset, both in microseconds. */
  datatype IsoTime = Naive(wall: Instant) | Aware(wall: Instant, offset: int)

  /** The ISO-8601 fallback parser; its calendar internals are not part of this model. */
  type IsoParser = string -> Option<IsoTime>

  /** A naive result is taken as UTC; an aware one is converted to UTC. */
  function ToUtc(t: IsoTime): Instant {
    match t
    case Naive(w) => w
    case Aware(w, off) => w - off
  }

  /** The string handed to the ISO parser: a trailing `Z` becomes `+00:00`. */
  function IsoInput(s: string): string {
    if |s| > 0 && s[|s| - 1] == 'Z' then s[..|s| - 1] + "+00:00" else s
  }

  /** The fallback read an aware time whose conversion to UTC leaves the `datetime` range:
      `astimezone` then raises `OverflowError`, which the fallback's `except` does not catch,
      so `_parse_llu_timestamp` raises instead of returning. */
  predicate ConversionOverflows(s: Option<string>, iso: IsoParser) {
    && Truthy(s)
    && ParseLlu(s.value).None?
    && iso(IsoInput(s.value)).Some?
    && iso(IsoInput(s.value)).value.Aware?
    && !(MinInstant <= ToUtc(iso(IsoInput(s.value)).value) <= MaxInstant)
  }

  /** `_parse_llu_timestamp` when it returns: nothing for a missing or empty string; the LLU
      format read as UTC; otherwise the ISO fallback converted to UTC; otherwise nothing. When
      `ConversionOverflows` holds the source raises; the value here is then `None`, and the
      callers test `ConversionOverflows` themselves. It reads no clock. */
  function ParseTimestamp(s: Option<string>, iso: IsoParser): (r: Option<Instant>)
    ensures !Truthy(s) ==> r.None?
    ensures Truthy(s) && ParseLlu(s.value).Some? ==> r == Some(CivilToInstant(ParseLlu(s.value).value))
    ensures ConversionOverflows(s, iso) ==> r.None?
    ensures r.Some? && !(Truthy(s) && ParseLlu(s.value).Some?) ==>
      iso(IsoInput(s.value)).Some? && r.value == ToUtc(iso(IsoInput(s.value)).value)
  {
    if !Truthy(s) then None
    else match ParseLlu(s.value)
      case Some(c) => Some(CivilToInstant(c))
      case None =>
        match iso(IsoInput(s.value))
        case Some(t) => if t.Aware? && !(MinInstant <= ToUtc(t) <= MaxInstant) then None else Some(ToUtc(t))
        case None => None
  }

  lemma NumberOf(d: string, rest: string, minLen: nat, maxLen: nat, lo: int, hi: int)
    requires AllDigits(d) && 1 <= |d| && minLen <= |d| <= maxLen && lo <= ValueOf(d) <= hi
    requires rest == [] || !IsDigit(rest[0])
    ensures Number(d + rest, minLen, maxLen, lo, hi) == Some(Scan(ValueOf(d), rest))
  {
    LeadingDigitsOf(d, rest);
    assert (d + rest)[..|d|] == d;
    assert (d + rest)[|d|..] == rest;
  }

  lemma BlankThen(rest: string)
    requires rest != [] && !IsSpace(rest[0])
    ensures Blanks(" " + rest) == Some(rest)
  {
    assert (" " + rest)[1..] == rest;
    assert SpaceRun(" " + rest) == 1;
  }

  lemma Hour12RoundTrip(h: int)
    requires 0 <= h < 24
    ensures 1 <= Hour12(h) <= 12
    ensures Hour24(Hour12(h), h >= 12) == h
  {
  }

  lemma MeridiemOf(pm: bool)
    ensures Meridiem(if pm then "PM" else "AM") == Some(Scan(pm, []))
  {
    var m := if pm then "PM" else "AM";
    assert m[0] == (if pm then 'P' else 'A') && m[1] == 'M' && m[2..] == [];
  }

  lemma DateRoundTrip(c: Civil, tail: string)
    requires ValidCivil(c) && tail != [] && !IsDigit(tail[0])
    ensures ParseDate(Digits(c.month) + ("/" + (Digits(c.day) + ("/" + (Padded(c.year, 4) + tail)))))
            == Some(Scan((c.year, c.month, c.day), tail))
  {
    var t2 := Padded(c.year, 4) + tail;
    var t1 := "/" + t2;
    var t0 := Digits(c.day) + t1;
    ValueOfDigits(c.month);
    NumberOf(Digits(c.month), "/" + t0, 1, 2, 1, 12);
    assert Literal("/" + t0, '/') == Some(t0);
    ValueOfDigits(c.day);
    assert DayNumber(t0) == Number(t0, 1, 2, 1, 31);
    NumberOf(Digits(c.day), t1, 1, 2, 1, 31);
    assert Literal(t1, '/') == Some(t2);
    ValueOfPadded(c.year, 4);
    NumberOf(Padded(c.year, 4), tail, 4, 4, 0, 9999);
  }

  lemma ClockRoundTrip(c: Civil, tail: string)
    requires ValidCivil(c) && tail != [] && !IsDigit(tail[0])
    ensures ParseClock(Digits(Hour12(c.hour)) + (":" + (Padded(c.minute, 2) + (":" + (Padded(c.second, 2) + tail)))))
            == Some(Scan((Hour12(c.hour), c.minute, c.second), tail))
  {
    var t3 := Padded(c.second, 2) + tail;
    var t2 := ":" + t3;
    var t1 := Padded(c.minute, 2) + t2;
    var t0 := ":" + t1;
    Hour12RoundTrip(c.hour);
    ValueOfDigits(Hour12(c.hour));
    NumberOf(Digits(Hour12(c.hour)), t0, 1, 2, 1, 12);
    assert Literal(t0, ':') == Some(t1);
    ValueOfPadded(c.minute, 2);
    NumberOf(Padded(c.minute, 2), t2, 1, 2, 0, 59);
    assert Literal(t2, ':') == Some(t3);
    ValueOfPadded(c.second, 2);
    NumberOf(Padded(c.second, 2), tail, 1, 2, 0, 61);
  }

  /** Every time the vendor can render is read back exactly by the LLU recogniser. */
  lemma {:induction false} LluRoundTrip(c: Civil)
    requires ValidCivil(c)
    ensures ParseLlu(FormatLlu(c)) == Some(c)
  {
    var mer := if c.hour >= 12 then "PM" else "AM";
    var t9 := " " + mer;
    var clock := Digits(Hour12(c.hour)) + (":" + (Padded(c.minute, 2) + (":" + (Padded(c.second, 2) + t9))));
    var t3 := " " + clock;
    var s := Digits(c.month) + ("/" + (Digits(c.day) + ("/" + (Padded(c.year, 4) + t3))));
    assert s == FormatLlu(c);
    DateRoundTrip(c, t3);
    assert IsDigit(clock[0]);
    BlankThen(clock);
    ClockRoundTrip(c, t9);
    BlankThen(mer);
    Hour12RoundTrip(c.hour);
    MeridiemOf(c.hour >= 12);
  }

  /** A vendor-rendered time normalises to the instant it denotes, whatever the fallback does. */
  lemma NormalisesLluFormat(c: Civil, iso: IsoParser)
    requires ValidCivil(c)
    ensures ParseTimestamp(Some(FormatLlu(c)), iso) == Some(CivilToInstant(c))
  {
    LluRoundTrip(c);
    assert FormatLlu(c) != "" by {
      assert |Digits(c.month)| >= 1;
    }
  }

  /** The fallback is consulted only when the LLU format fails, and then sees the string
      with a trailing `Z` rewritten to `+00:00`; its result is converted to UTC (a naive
      result is taken as UTC). */
  lemma FallbackOnlyAfterLlu(s: string, iso1: IsoParser, iso2: IsoParser)
    requires s != ""
    ensures ParseLlu(s).Some? ==> ParseTimestamp(Some(s), iso1) == ParseTimestamp(Some(s), iso2)
    ensures ParseLlu(s).None? && !ConversionOverflows(Some(s), iso1) ==>
      ParseTimestamp(Some(s), iso1) == (if iso1(IsoInput(s)).Some? then Some(ToUtc(iso1(IsoInput(s)).value)) else None)
    ensures s[|s| - 1] == 'Z' ==> IsoInput(s) == s[..|s| - 1] + "+00:00"
    ensures s[|s| - 1] != 'Z' ==> IsoInput(s) == s
    ensures iso1(IsoInput(s)).Some? && iso1(IsoInput(s)).value.Naive? ==> ToUtc(iso1(IsoInput(s)).value) == iso1(IsoInput(s)).value.wall
  {
  }

  /** The vendor rendering of 2024-06-01T10:00:00. */
  lemma FormatExample()
    ensures FormatLlu(Civil(2024, 6, 1, 10, 0, 0)) == "6/1/2024 10:00:00 AM"
  {
    var c := Civil(2024, 6, 1, 10, 0, 0);
    NumeralExamples();
    assert Hour12(10) == 10;
    assert FormatLlu(c) == "6" + ("/" + ("1" + ("/" + ("2024" + (" " + ("10" + (":" + ("00" + (":" + ("00" + (" " + "AM")))))))))));
  }
}

=== FILE: trend.dfy ===
/** The trend mapper: vendor trend phrases to canonical directions, by exact match only. */
module Trend {
  import opened Optional

  /** Canonical directions; `NONE` is the source's string for "no direction". */
  datatype Direction = DoubleUp | SingleUp | FortyFiveUp | Flat | FortyFiveDown | SingleDown | DoubleDown | NONE

  /** The phrase table of `_map_trend_arrow`. The entries for `""` and `None` map to `NONE`,
      which is also the default, so they need no row here. */
  const TrendTable: map<string, Direction> := map[
    "Rising Quickly" := DoubleUp,
    "Rapidly Rising" := DoubleUp,
    "Rising" := SingleUp,
    "Rising Slowly" := FortyFiveUp,
    "Stable" := Flat,
    "Falling Slowly" := FortyFiveDown,
    "Falling" := SingleDown,
    "Falling Quickly" := DoubleDown,
    "Rapidly Falling" := DoubleDown
  ]

  /** `_map_trend_arrow`: a lookup with `NONE` as the default; `None` (a JSON `null`) maps to `NONE`. */
  function MapTrendArrow(trend: Option<string>): (d: Direction)
    ensures d == NONE <==> trend.None? || trend.value !in TrendTable
  {
    if trend.Some? && trend.value in TrendTable then TrendTable[trend.value] else NONE
  }

  /** The preimage of each direction: exactly the listed phrases, compared character by
      character (no case folding, no trimming); everything else, `""` and `null` included,
      is `NONE`. */
  lemma TrendPreimages(trend: Option<string>)
    ensures MapTrendArrow(trend) == DoubleUp <==> trend == Some("Rising Quickly") || trend == Some("Rapidly Rising")
    ensures MapTrendArrow(trend) == SingleUp <==> trend == Some("Rising")
    ensures MapTrendArrow(trend) == FortyFiveUp <==> trend == Some("Rising Slowly")
    ensures MapTrendArrow(trend) == Flat <==> trend == Some("Stable")
    ensures MapTrendArrow(trend) == FortyFiveDown <==> trend == Some("Falling Slowly")
    ensures MapTrendArrow(trend) == SingleDown <==> trend == Some("Falling")
    ensures MapTrendArrow(trend) == DoubleDown <==> trend == Some("Falling Quickly") || trend == Some("Rapidly Falling")
    ensures MapTrendArrow(trend) == NONE <==> trend.None? || trend.value !in TrendTable
  {
  }

  lemma TrendExamples()
    ensures MapTrendArrow(Some("Rising Quickly")) == DoubleUp
    ensures MapTrendArrow(Some("Stable")) == Flat
    ensures MapTrendArrow(Some("")) == NONE
    ensures MapTrendArrow(Some("stable")) == NONE
    ensures MapTrendArrow(Some("Unknown Phrase")) == NONE
    ensures MapTrendArrow(None) == NONE
  {
  }
}

=== FILE: vendor.dfy ===
/** The three LibreLinkUp endpoints' replies, as decoded JSON shapes the source inspects. */
module Vendor {
  import opened Optional

  /** One HTTP exchange as the client sees it:
      - `RequestFailed`: `requests` raised; `httpStatus` is the response code of an HTTP error
        (`raise_for_status`) and absent for a transport failure such as a timeout;
      - `Garbled`: the body did not decode, or reading it raised before any field was stored
        (for a graph body this includes a `null` `graphData`, `connection` or
        `glucoseMeasurement`, or a `connection` that is not an object, which the logging of
        `get_glucose_data` cannot read);
      - `Body`: a decoded 2xx body. */
  datatype Reply<+B> = RequestFailed(httpStatus: Option<int>) | Garbled | Body(body: B)

  /** `data.authTicket` of a login body. `expires` (POSIX seconds) and `duration` (seconds)
      default to 0 when missing; a `null` makes the comparison with 0 raise. */
  datatype AuthTicket = AuthTicket(token: Field<string>, expires: Field<int>, duration: Field<int>)

  datatype User = User(id: Field<string>)

  /** `POST /llu/auth/login`. `authTicket`/`user` are absent when missing, `null` or `{}`. */
  datatype LoginBody = LoginBody(status: Option<int>, authTicket: Option<AuthTicket>, user: Option<User>)

  /** A renewed ticket piggybacked on a rejected data call. A missing or `null` `expires`
      both leave the expiry as it was. */
  datatype Ticket = Ticket(token: Option<string>, expires: Option<int>)

  /** One entry of the connections list; only `patientId` is read (names are only logged). */
  datatype Connection = Connection(patientId: Option<string>)

  datatype ConnectionsData = ConnectionList(items: seq<Connection>) | NotAList

  /** `GET /llu/connections`. */
  datatype ConnectionsBody = ConnectionsBody(status: Option<int>, ticket: Option<Ticket>, data: ConnectionsData)

  /** `connection.glucoseMeasurement`. Each field is absent when missing or `null`;
      `ValueInMgPerDl` is the glucose value in mg/dL. */
  datatype Measurement = Measurement(timestamp: Option<string>, valueInMgPerDl: Option<int>, trendArrow: Option<string>)

  /** One element of `graphData`: the source tests these two keys for presence only. */
  datatype Point = Point(value: Field<int>, timestamp: Field<string>)

  /** `graphData`: a list (a missing key reads as the empty list), or a non-list that still
      has a length (an object or a string). */
  datatype History = Points(points: seq<Point>) | NotAList

  /** The `data` object of a graph body. `EmptyDict` is `{}`; a non-empty object carries the
      measurement (absent when `connection` or `glucoseMeasurement` is missing or `{}`) and
      the history. The `null` and non-object values that make `get_glucose_data` raise are
      replies of their own (`Garbled`), so they have no `GraphDict`. */
  datatype GraphDict = EmptyDict | Graph(measurement: Option<Measurement>, history: History) {

    function Latest(): Option<Measurement> {
      if Graph? then measurement else None
    }

    function GraphData(): History {
      if Graph? then history else Points([])
    }
  }

  datatype GraphPayload = GraphObject(dict: GraphDict) | NotADict

  /** `GET /llu/connections/{patientId}/graph`. */
  datatype GraphBody = GraphBody(status: Option<int>, ticket: Option<Ticket>, data: GraphPayload)
}
